=== FILE: README.md ===
# hashnet-js peer core in Dafny

This project models the core of hashnet-js in three parts.

- **BitBuffer** (`src/bitbuffer.js`): a sequence of bits, each 0 or 1. It expands bytes into bits with the most significant bit first. `shiftUint(n)` pops n leading bits as a big-endian unsigned integer. `toBuffer` packs the bits back into bytes.
- **Hook pipeline** (`src/hook.js`): threads a value through a queue of synchronous or asynchronous filters.
- **Peer message engine** (`src/peer.js`):
  - a connection table whose entries are freed to null and reused lowest index first;
  - hop relaying with an accumulated reverse list;
  - ping/pong round-trip measurement;
  - `preq`/`pres` neighbour listing;
  - the path finder, which asks every newly heard peer for its connections at once, keeps for each id the path from whichever answer reports it first, and settles a search once, either with a slot path or with `false` on timeout;
  - the interval tick;
  - `shutdown`.

The JavaScript mutates objects in place. The model uses immutable values and pure steps instead:

- A bit buffer is a `seq<Bit>`. `shiftUint` returns the value it read together with the buffer that is left.
- A peer is a `Peer` value:
  - the table is `seq<Option<Handle>>`;
  - the connection objects are a map from handle to `{slot, id, rtt}`;
  - the path-finder records are a map from search id to `Finder`.
- Every handler returns a `Step`, which holds:
  - the new state;
  - the effects in the order they happen: sends on a transport, destroyed transports, and settled searches;
  - a flag telling whether the handler threw before finishing.
- The clock is a `now` parameter. The interval timer and the path-finder timers are explicit events: `Ticked` and `TimerFired`, handled by `Tick` and `FinderTimer`; a path-finder timer's deadline is stored in the record. Random ids are parameters.

Modules:

- `Wrappers`: `Option`.
- `BitBuffer`.
- `Hook`.
- `PeerState`: the data model, the table invariant and the table queries.
- `PathFinder`: `recv` and its loop.
- `PeerEngine`: the handlers and the event step `Next`.
- `PeerProperties`: properties that span several steps.

The invariant `Valid` has two parts:

- every live entry's `slot` equals its index in the table;
- every path-finder record is consistent: a settled search has no pending timer, a pending search has not yet recorded its target, and every recorded path is non-empty.

`NextKeepsValid` shows that every event keeps it.

Facts about the code that shape the model:

- Slots are 0-based table indices.
- The connection table has no size bound.
- Paths are plain lists of slot indices (`h`, `r`).
- First discovery wins: an id keeps the path from whichever `pres` reports it first, whatever its hop count or round-trip time.

## Model

| member | source | states |
|---|---|---|
| `BitBuffer.New` | src/bitbuffer.js:2-5 | a new buffer of n bits has length n and every bit is 0 |
| `BitBuffer.FromBuffer` | src/bitbuffer.js:7-19 | the expansion has 8 bits per byte; bit 8i+k is bit 7-k of byte i, so bits run most significant first and byte order is kept |
| `BitBuffer.ShiftUint` | src/bitbuffer.js:22-34 | the count defaults to 1; exactly min(n, length) leading bits are removed; the result is their big-endian value scaled by 2^(n-r) when only r < n bits remain (missing bits are low-order zeros); the result is below 2^n |
| `BitBuffer.ShiftValue` | src/bitbuffer.js:28-31 | reading n bits when only r are left gives value(remaining bits)·2^(n-r), below 2^n |
| `BitBuffer.ToBuffer` | src/bitbuffer.js:36-44 | the result has ceil(length/8) bytes; byte i is bits 8i..8i+7 read most significant first, zero-filled past the end |
| `BitBuffer.ToBufferFromBuffer` | src/bitbuffer.js:7-44 | round trip: packing the expansion of any byte sequence gives that byte sequence back |
| `BitBuffer.ShiftSixteen` | src/bitbuffer.js:22-34 | a 16-bit read of an expansion is the first two bytes as a big-endian value, and what is left is the expansion of the other bytes |
| `BitBuffer.ShiftSixteenCounting` | src/bitbuffer.test.js:40-46 | the expansion of 0..11 has 96 bits; read i takes 16 bits from what read i - 1 left (the expansion without its first 16i bits) and gives (2i << 8) + (2i + 1), for i = 0..5 |
| `BitBuffer.SpliceReverseExample` | src/bitbuffer.test.js:52-67 | the first nybble of the expansion of 0b11001010, 0b10010110 is 1,1,0,0; the rest followed by that nybble reversed is 1,0,1,0,1,0,0,1,0,1,1,0,0,0,1,1 |
| `BitBuffer.Reverse` | src/bitbuffer.test.js:61-62 | reversing keeps the length and puts element i at position length-1-i |
| `Hook.Run` | src/hook.js:1-10 | a queue that is not an array returns the value unchanged; otherwise the result is the left fold of the function entries, in queue order, over the value |
| `Hook.RunItems` | src/hook.js:4-7 | the loop over the entries computes the fold of the function entries alone: the first function sees the input and each later one sees the previous output |
| `Hook.RunEmpty` | src/hook.js:4-9 | an empty queue returns the input unchanged |
| `Hook.RunAppend` | src/hook.js:4-7 | running queue a + b is running b on the output of a |
| `Hook.RunSkipsNonFunction` | src/hook.js:5 | an entry that is not a function has no effect on the result, wherever it stands |
| `Hook.RunSyncAsync` | src/hook.js:6 | a synchronous and an asynchronous filter computing the same function give the same pipeline result, anywhere in the queue; this follows from the model awaiting an asynchronous filter's value as that of the function it computes, so it is a fact about that encoding of `await`, not a further law of the loop |
| `Hook.UpperCaseExamples` | src/hook.test.js:20-23 | no queue and an empty queue return the input; an upper-casing filter gives the upper-cased string whether synchronous or asynchronous |
| `Hook.Upper` | src/hook.test.js:14 | upper-casing keeps the length and maps each character through the ASCII upper-case map |
| `PeerState.FirstFree` | src/peer.js:80-87 | the index a new connection takes is the first empty entry: every entry before it is live, and it is the table length when none is empty |
| `PeerState.IndexOf` | src/peer.js:95 | the lookup finds a connection iff it is in the table, and then finds its first occurrence |
| `PeerState.LiveHandles` | src/peer.js:119 | filtering out the empty entries keeps exactly the connections present in the table |
| `PeerState.LiveHandlesInOrder` | src/peer.js:119 | the filtered list keeps table order: its entries sit at strictly increasing indices, one per live entry, and every live index is among them |
| `PeerEngine.Init` | src/peer.js:42-59 | the defaults are interval 5000 and timeout 2000, each overridden by a given option; the id is the option or the generated one; the table and the finders start empty; the timer runs; the invariant holds |
| `PeerEngine.AddConnection` | src/peer.js:77-95 | the connection takes the lowest empty entry or is appended; a new connection's slot is that index; only the slot is assigned, so a returning connection keeps its id and rtt and a fresh one has neither; no other entry and no other connection object changes |
| `PeerEngine.AddConnectionKeepsValid` | src/peer.js:77-95 | admitting a connection that is not live keeps every live slot equal to its index |
| `PeerEngine.Close` | src/peer.js:105-109 | a close empties the connection's entry without moving others; a connection not in the table changes nothing; the invariant is kept |
| `PeerEngine.FindRelay` | src/peer.js:119 | the relay found is a live connection whose slot is the hop, and none is found exactly when no live connection has that slot |
| `PeerEngine.Relay` | src/peer.js:117-123 | a message with hops goes only to the live connection whose slot is the first hop, with that hop removed and the incoming slot appended to r when there is an incoming connection; with no such connection nothing is sent; the state never changes |
| `PeerEngine.HearPing` | src/peer.js:129-138 | a ping records the transmitter as the incoming connection's id and is answered on that connection with a pong echoing p, from this peer, h = the ping's r, r empty; without an incoming connection the handler throws |
| `PeerEngine.HearPong` | src/peer.js:139-146 | a pong with empty r sets the incoming connection's rtt to now - p and its id to the transmitter; a pong with non-empty r changes nothing and sends nothing |
| `PeerEngine.HearPreq` | src/peer.js:149-158 | a preq is answered on the incoming connection with a pres from this peer echoing fid, listing the live connections, with h = the request's r; the state does not change |
| `PeerEngine.HearPres` | src/peer.js:159-163 | a pres without a search id, or for a search with no record, is dropped; otherwise only that record changes, as its recv handler dictates |
| `PeerEngine.Hear` | src/peer.js:114-175 | a message with hops is relayed; otherwise it is dispatched on its type, a data message throws (unbounded recursion) and an unknown type is ignored; the table, the slots and the id never change |
| `PeerEngine.Tick` | src/peer.js:62-73 | a running peer sends one ping, stamped with the current time, to every live connection in table order; a stopped peer sends nothing |
| `PeerEngine.FindPath` | src/peer.js:178-235 | a search installs a record for the target with its timer armed at now + timeout, then hears from itself a pres listing every connection; no other record, entry or connection changes |
| `PeerEngine.FinderTimer` | src/peer.js:184-189 | a due timer of a pending search deletes the record and settles the search with false; a settled or missing search, a cleared timer, or a timer not yet due changes nothing |
| `PeerEngine.Shutdown` | src/peer.js:252-265 | the first call stops the timer and destroys every live connection in table order; a call on a stopped peer does nothing |
| `PeerEngine.Next` | src/peer.js:42-265 | no event changes the peer's id |
| `PathFinder.FirstWith` | src/peer.js:200-205 | the entry chosen for an id is a listed entry carrying that id |
| `PathFinder.FirstWithIsFirst` | src/peer.js:200-205 | the entry chosen for an id is the earliest one: every entry before it carries another id |
| `PathFinder.Scan` | src/peer.js:200-221 | the loop never overwrites a known entry; it settles exactly when the target is newly recorded, with a final settlement carrying the target's path and the timer cleared; a loop that throws does not settle |
| `PathFinder.ScanCovers` | src/peer.js:200-221 | a loop that neither settles nor throws records every listed id |
| `PathFinder.ScanAdded` | src/peer.js:200-205 | every added entry is built from the first listed peer carrying its id: path = the sender's path plus its slot (just its slot from this peer), rtt = the sender's rtt plus the reported rtt |
| `PathFinder.ScanExplained` | src/peer.js:206-221 | both directions: every send but a final settlement is the preq along the path of a newly added entry, over connections[path[0]] with h = path[1..]; every added entry other than the target's is sent its preq unless the loop threw; a throw comes from a new entry whose first hop is an empty entry |
| `PathFinder.ScanFaultKey` | src/peer.js:213-214 | a loop that throws has added an entry whose first hop is an empty table entry |
| `PathFinder.ScanSendAt` | src/peer.js:213-220 | each send that is not the final settlement is the preq of an entry the loop added |
| `PathFinder.ScanExplores` | src/peer.js:213-220 | each entry the loop adds, other than the target's, is sent its preq unless the loop threw |
| `PathFinder.ScanStops` | src/peer.js:200-221 | where the loop stops: j is the least index whose entry is new (neither known nor listed earlier) and is the target or has an empty first hop, or the list length; the loop settles exactly when entry j is the target and throws exactly when it is another id |
| `PathFinder.ScanStopsKeys` | src/peer.js:200-221 | the loop records every id listed before the stopping index and no new id first listed after it |
| `PathFinder.ScanPreqAt` | src/peer.js:201-220 | every new entry before the stopping index is recorded with the sender's path plus its slot and is sent its preq along that path |
| `PathFinder.ScanFindsListed` | src/peer.js:198-211 | a loop over this peer's own list, with only live slots, that carries the target settles on the one-hop path of the first entry with the target id |
| `PathFinder.Recv` | src/peer.js:194-222 | recv is a no-op once settled; otherwise it re-arms the timer, ignores a sender that is neither this peer nor known, keeps every known entry, adds only listed ids, records every listed id unless it settles or throws, and settles exactly when the target first appears |
| `PathFinder.RecvIsScan` | src/peer.js:195-200 | a pending search hearing a list from this peer or a known one runs the loop over that list with its timer re-armed |
| `PathFinder.RecvAdded` | src/peer.js:199-205 | the entries recv adds come from the first listed peer with each id, extended from the sender's entry |
| `PathFinder.RecvFault` | src/peer.js:200-214 | recv throws only on a payload that is not a list or on a new entry whose first hop is an empty entry |
| `PathFinder.RecvSends` | src/peer.js:206-220 | every effect of recv is a preq along a new entry's path or the final settlement, and every new entry other than the target's gets its preq unless recv threw |
| `PathFinder.RecvStops` | src/peer.js:194-221 | recv of a list from this peer or a known one records every id before the stopping index, settles exactly when the entry there is the target, throws exactly when it is another id, and records no new id first listed after it |
| `PathFinder.RecvPreqAt` | src/peer.js:194-220 | recv records every new entry before the stopping index, extended from the sender's entry, and sends its preq along that path |
| `PeerProperties.RecvKeepsFinderOk` | src/peer.js:194-222 | recv keeps a path-finder record consistent: a settled search has no pending timer, a pending one has not recorded its target, and every path is non-empty |
| `PeerProperties.HearKeepsValid` | src/peer.js:114-175 | hearing any message keeps the table invariant and the consistency of every record |
| `PeerProperties.SearchKeepsValid` | src/peer.js:178-235 | starting a search keeps the invariant |
| `PeerProperties.NextKeepsValid` | src/peer.js:77-265 | every event keeps the invariant: each live entry's slot equals its index and every record is consistent |
| `PeerProperties.SlotReuse` | src/peer.js:80-109 | closing the connection at index k of a full table and admitting a new one puts the new connection at index k with slot k, keeps the table length, and moves no other entry |
| `PeerProperties.RelayToHopIndex` | src/peer.js:117-123 | under the invariant a relayed message goes to the connection at the index named by its first hop, and is dropped exactly when that entry is empty or out of range |
| `PeerProperties.OneRelayReturnPath` | src/peer.js:117-123 | after one relay, a reply addressed with h = the forwarded r is relayed back onto the connection the original arrived on |
| `PeerProperties.PingPongMeasuresRtt` | src/peer.js:62-146 | a tick's ping stamped t0, answered by the neighbour's pong, heard at t1, records rtt = t1 - t0 and the neighbour's id on that connection |
| `PeerProperties.LiveHandlesBySlot` | src/peer.js:119 | under the invariant the live connections, in table order, have strictly increasing slots, each naming the index that holds it |
| `PeerProperties.PresListsLiveConnections` | src/peer.js:154 | a pres lists exactly the live connections in table order: each entry is {id, rtt, slot} of the connection at index slot, slots strictly increase, and every live index appears |
| `PeerProperties.TickPingsEveryLive` | src/peer.js:62-73 | a tick pings every live connection exactly once and sends nothing else |
| `PeerProperties.ShutdownIdempotent` | src/peer.js:252-265 | a second shutdown changes nothing and does nothing; the first destroys every live connection exactly once |
| `PeerProperties.HearSettlement` | src/peer.js:159-163 | hearing a message settles a search only if it was pending, only as the last effect, with a non-empty path, after which it is settled; a settled search is untouched |
| `PeerProperties.SettlesAtMostOnce` | src/peer.js:181-211 | a search settles at most once: a settled search keeps its record and is not settled again, a missing one is not settled, and a pending one is settled by at most one effect, after which it is settled or deleted |
| `PeerProperties.FindPathToNeighbour` | src/peer.js:226-233 | searching for a direct neighbour's id settles at once on the one-hop path through the lowest index whose connection carries that id |
| `PeerProperties.NeighbourSlot` | src/peer.js:226-233 | the kick-start list of a table without empty entries reports only live slots, carries each neighbour's id, and its first entry with that id names the lowest index carrying it |
| `PeerProperties.SearchSettlesOnList` | src/peer.js:178-233 | a search whose kick-start list reports only live slots and carries the target settles at once on the one-hop path of the first entry with it |
| `PeerProperties.SelfListSettles` | src/peer.js:198-211 | a search hearing from itself a list of live slots that contains the target settles on the one-hop path of the first entry carrying the target |

## Left out

- The crypto, the top-level entry points and WebRTC are not part of this model. That is `keypair.js`, `index.js`, `src/index.js` and the examples: foreign libraries, big-integer arithmetic, I/O.
- Transports are opaque `Handle`s, and sends are `Transmit` effects. The test transport mock is not modelled.
- Every handler is modelled as atomic: a `send` delivers nothing back into this peer before the handler returns. A transport that delivers synchronously, as the test mock `test/connection.js` does, can re-enter `recv` from inside the loop of `recv`. The nested call may then record an id listed later in the outer list, along a longer path, so the kept path differs from the one `PathFinder.Scan` computes. It may also settle the search while the outer loop goes on recording entries and sending `preq`s, which `PeerProperties.HearSettlement` rules out for the model.
- JSON framing is not modelled: a message is the `Message` datatype. A frame that does not parse throws in the source, uncaught; the model cannot produce that case.
- JavaScript values are represented as follows.
  - An undefined `id` or `rtt` is `None`.
  - NaN from arithmetic on undefined is also `None`.
  - `known` is keyed by `Option<Id>` where the source uses the object key `String(id)`, so an undefined id and the string "undefined" are not conflated.
- The `data` branch of `_hear` re-enters itself without end. It is modelled as a throw (`fault`), not as a delivery.
- `send(data, peerId)` is left out; it is not among the modelled operations. It awaits `_findPath` and sends a `data` message.
- Multi-hop return paths are not modelled. Replies use `h = r` unreversed, so only the one-relay round trip (`OneRelayReturnPath`) is stated.
- Timers and the clock:
  - The interval value does not drive ticks: a tick is an event.
  - A path-finder timer is a deadline checked when a `TimerFired` event arrives.
  - Promise resolution is a `Resolve` effect.
- `randomString` ids are parameters: `randomId` of `Init`, and the `fid` of a search.
- Constructor options other than `id`, `interval` and `timeout` are not modelled. That includes `connections`, which would preset the table.
- `shutdown` destroys transports. The close events that follow arrive later as `Closed` events.
- `PeerProperties.NextKeepsValid`: it excludes admitting a connection that is already live. Re-adding one would leave it at two indices, and its slot would name only the first.
- `PeerEngine.FindPath`: it requires a table with no empty entries. The source's kick-start reads fields of every entry and throws on a freed one.
- `PeerEngine.AddConnection`: every call registers another `data` and another `close` listener on the connection (`src/peer.js:98-109`). A connection that is closed and admitted again therefore has each of its frames parsed and heard once per admission, so it gets two pongs per ping, two `pres` per `preq`, and two relays per hop. The model hears each frame once.
- `PeerEngine.FindPath`: a new search under the id of a stored record replaces the record and forgets its timer. In the source the old timer stays armed; when it fires, the old closure deletes the new record and settles the old promise with `false`. Search ids are 32 random characters, so a reuse is a collision, and the model names a promise by its search id, so two promises under one id are not modelled.
- `PeerProperties.SettlesAtMostOnce`: it excludes a new search under the same id. The model names a promise by its search id, and a second search under that id, which the source settles separately, could settle again under the same name.
- `PeerEngine.FindPath`: an empty search id is treated like a missing one, as the source's `!message.fid` test does. A generated id is never empty.
- `PeerEngine.Next`: its contract states only that the id is kept. The per-event behaviour is stated by the handler it dispatches to, and the invariant by `PeerProperties.NextKeepsValid`.
- Console logging of unknown message types is not modelled.
- `PeerEngine.Init`: an option given as `undefined` is copied over the default by `Object.assign`, so `{interval: undefined}` leaves the interval undefined. `Options` uses `None` for "not given", so it cannot express this.
- `BitBuffer.ShiftUint`: JavaScript numbers are doubles, so the accumulated value is exact only up to 53 bits. From n = 54 on, the source rounds: 54 one-bits read as 2^54, not 2^54 - 1. The model computes exactly. The only callers in the source, `toBuffer` and its test, read 8 or 16 bits at a time; `src/peer.js` does not use BitBuffer.
- `BitBuffer.ShiftUint`: `while (bits--)` never ends for a negative or fractional count. The count is a `nat` here, so those calls are not modelled.
- `BitBuffer.ShiftValue`: the exact value and the bound "below 2^n" hold in the source only for n up to 53, for the same double-precision reason.
- `Hook.Run`: a filter that throws, or returns a rejected promise, makes the runner reject and skips the later filters. `Entry` holds only total functions, so this case is not modelled.
- `Hook.RunItems`: for the same reason, the loop is modelled only for filters that return.
- `Hook.Upper`: it maps only ASCII letters. `toUpperCase` also maps other letters, and some change the length, such as 'ß' becoming "SS".
- `PeerEngine.HearPres`: `_pathFinders` is a plain object, so an fid naming an `Object.prototype` member, such as "constructor", passes the lookup and then throws on `.recv`. The model's record map has no such members and drops that message.
- `PathFinder.Scan`: `known` is a plain object, so a listed id naming an `Object.prototype` member, such as "toString", counts as already known and is never recorded. The model records it.
- `PathFinder.Recv`: the same plain-object lookup applies to the sender check, so a sender id such as "toString" passes it in the source.

=== FILE: bitbuffer.dfy ===
/**
  A model of `BitBuffer`: an ordered sequence of bits (each 0 or 1) with
  conversion from and to byte sequences. The JavaScript class mutates an
  array in place; here a buffer is an immutable `seq<Bit>` and every
  destructive operation returns the remaining buffer alongside its result.
*/
module BitBuffer {
  import opened Wrappers

  type Bit = b: int | 0 <= b <= 1
  type Byte = b: int | 0 <= b < 256

  function Pow2(n: nat): (r: nat)
    ensures r >= 1
  {
    if n == 0 then 1 else 2 * Pow2(n - 1)
  }

  function Min(a: nat, b: nat): nat
  {
    if a <= b then a else b
  }

  /** `new BitBuffer(n)`: a buffer of n bits, every one of them 0. */
  function New(n: nat): (r: seq<Bit>)
    ensures |r| == n
    ensures forall i :: 0 <= i < n ==> r[i] == 0
  {
    if n == 0 then [] else New(n - 1) + [0]
  }

  /** Bit k of byte b, counting from the most significant bit (k = 0): (b >> (7 - k)) % 2. */
  function BitOf(b: Byte, k: nat): Bit
    requires k < 8
  {
    (b / Weight(k)) % 2
  }

  /** 2^(7 - k), the place value of bit k of a byte. */
  function Weight(k: nat): nat
    requires k < 8
  {
    Pow2(7 - k)
  }

  /** The eight bits of one byte, most significant first. */
  function ByteBits(b: Byte): seq<Bit>
  {
    [BitOf(b, 0), BitOf(b, 1), BitOf(b, 2), BitOf(b, 3),
     BitOf(b, 4), BitOf(b, 5), BitOf(b, 6), BitOf(b, 7)]
  }

  /**
    `BitBuffer.fromBuffer`: every byte expands into eight bits, most
    significant first, and byte order is kept.
  */
  function FromBuffer(bytes: seq<Byte>): (r: seq<Bit>)
    ensures |r| == 8 * |bytes|
    ensures forall j :: 0 <= j < |r| ==> r[j] == BitOf(bytes[j / 8], j % 8)
  {
    if |bytes| == 0 then []
    else
      var tail := FromBuffer(bytes[1..]);
      assert forall j :: 8 <= j < 8 * |bytes| ==> tail[j - 8] == BitOf(bytes[j / 8], j % 8) by {
        forall j | 8 <= j < 8 * |bytes|
          ensures tail[j - 8] == BitOf(bytes[j / 8], j % 8)
        {
          assert (j - 8) / 8 == j / 8 - 1 && (j - 8) % 8 == j % 8;
        }
      }
      ByteBits(bytes[0]) + tail
  }

  /** Big-endian unsigned value of a bit sequence. */
  function Value(bits: seq<Bit>): (r: nat)
    ensures r < Pow2(|bits|)
  {
    if |bits| == 0 then 0
    else (if bits[0] == 1 then Pow2(|bits| - 1) else 0) + Value(bits[1..])
  }

  /**
    The n bits `shiftUint(n)` reads: the first min(n, |bits|) bits of the
    buffer followed by zeros for the bits that are not there.
  */
  function Padded(bits: seq<Bit>, n: nat): (r: seq<Bit>)
  {
    var m := Min(n, |bits|);
    bits[..m] + New(n - m)
  }

  /**
    What `shiftUint(n)` computes: the big-endian value of the n bits it
    reads, and the buffer left once they are removed.
  */
  function Shift(bits: seq<Bit>, n: nat): (nat, seq<Bit>)
  {
    (Value(Padded(bits, n)), bits[Min(n, |bits|)..])
  }

  /** `shiftUint` with no argument reads a single bit. */
  const DefaultShiftBits: nat := 1

  /**
    `shiftUint(n)`: removes min(n, |bits|) leading bits and returns them as
    a big-endian unsigned integer. Missing bits are read as 0 in the
    low-order positions, so a short buffer scales its value up by
    2^(n - |bits|) and is left empty.
  */
  method ShiftUint(bits: seq<Bit>, n: Option<nat>) returns (value: nat, rest: seq<Bit>)
    ensures var count := if n.Some? then n.value else DefaultShiftBits;
            var m := Min(count, |bits|);
            && rest == bits[m..]
            && value == Value(bits[..m]) * Pow2(count - m)
            && value < Pow2(count)
            && (value, rest) == Shift(bits, count)
  {
    var count := if n.Some? then n.value else DefaultShiftBits;
    var i := 0;
    value := 0;
    rest := bits;
    while i < count
      invariant 0 <= i <= count
      invariant rest == bits[Min(i, |bits|)..]
      invariant value == Scaled(bits, i)
    {
      ShiftStep(bits, i);
      value := value * 2;
      if |rest| > 0 {
        value := value + rest[0];
        rest := rest[1..];
      }
      i := i + 1;
    }
    ShiftValue(bits, count);
  }

  /** The value read after i iterations of the `shiftUint` loop. */
  function Scaled(bits: seq<Bit>, i: nat): nat
  {
    Value(bits[..Min(i, |bits|)]) * Pow2(i - Min(i, |bits|))
  }

  /** One iteration of the `shiftUint` loop: the value read so far doubles and takes the next bit, or 0. */
  lemma ShiftStep(bits: seq<Bit>, i: nat)
    ensures Scaled(bits, i + 1) == 2 * Scaled(bits, i) + (if i < |bits| then bits[i] else 0)
  {
    if i < |bits| {
      assert bits[..i + 1] == bits[..i] + [bits[i]];
      ValueSnoc(bits[..i], bits[i]);
    } else {
      DoubleScale(Value(bits[..|bits|]), i - |bits|);
    }
  }

  lemma DoubleScale(v: nat, k: nat)
    ensures v * Pow2(k + 1) == 2 * (v * Pow2(k))
  {
  }

  /** Appending one bit doubles the value and adds the bit. */
  lemma {:induction false} ValueSnoc(s: seq<Bit>, b: Bit)
    ensures Value(s + [b]) == 2 * Value(s) + b
  {
    if |s| > 0 {
      assert (s + [b])[1..] == s[1..] + [b];
      ValueSnoc(s[1..], b);
    }
  }

  /** Value of a concatenation: the front is shifted left by the back's width. */
  lemma {:induction false} ValueAppend(s: seq<Bit>, t: seq<Bit>)
    ensures Value(s + t) == Value(s) * Pow2(|t|) + Value(t)
  {
    if |s| == 0 {
      assert s + t == t;
    } else {
      assert (s + t)[1..] == s[1..] + t;
      ValueAppend(s[1..], t);
      PowAdd(|s| - 1, |t|);
      Combine(s[0] == 1, Pow2(|s| - 1), Pow2(|t|), Value(s[1..]), Value(t));
    }
  }

  /** The arithmetic step of `ValueAppend`. */
  lemma Combine(c: bool, q: int, p: int, a: int, b: int)
    ensures (if c then q * p else 0) + (a * p + b) == ((if c then q else 0) + a) * p + b
  {
  }

  lemma {:induction false} PowAdd(a: nat, b: nat)
    ensures Pow2(a + b) == Pow2(a) * Pow2(b)
  {
    if a > 0 {
      PowAdd(a - 1, b);
    }
  }

  lemma {:induction false} ValueZeros(n: nat)
    ensures Value(New(n)) == 0
  {
    if n > 0 {
      assert New(n)[1..] == New(n - 1);
      ValueZeros(n - 1);
    }
  }

  /**
    The value `shiftUint(n)` returns when only r = min(n, |bits|) bits are
    read: the value of those bits times 2^(n - r).
  */
  lemma ShiftValue(bits: seq<Bit>, n: nat)
    ensures Shift(bits, n).0 == Value(bits[..Min(n, |bits|)]) * Pow2(n - Min(n, |bits|))
    ensures Shift(bits, n).0 < Pow2(n)
  {
    var m := Min(n, |bits|);
    ValueAppend(bits[..m], New(n - m));
    ValueZeros(n - m);
  }

  /**
    `toBuffer`: ceil(|bits| / 8) bytes, byte i holding bits 8i .. 8i+7
    most significant first and zero-filled past the end. The receiver is
    an immutable value, so it is left unchanged by construction.
  */
  function ToBuffer(bits: seq<Bit>): (r: seq<Byte>)
    ensures |r| == (|bits| + 7) / 8
    ensures forall i :: 0 <= i < |r| ==> r[i] == Value(Padded(bits[8 * i..], 8))
    decreases |bits|
  {
    if |bits| == 0 then []
    else
      var (v, rest) := Shift(bits, 8);
      ShiftValue(bits, 8);
      assert Pow2(8) == 256;
      var tail := ToBuffer(rest);
      DropEight(bits);
      [v] + tail
  }

  lemma DropEight(bits: seq<Bit>)
    requires |bits| > 0
    ensures forall i :: 1 <= i < (|bits[Min(8, |bits|)..]| + 7) / 8 + 1 ==>
              bits[8 * i..] == bits[Min(8, |bits|)..][8 * (i - 1)..]
  {
  }

  /** Reading 8 bits of an expanded byte gives the byte back. */
  lemma ValueByteBits(b: Byte)
    ensures Value(ByteBits(b)) == b
  {
    var s := ByteBits(b);
    Pow2Table();
    assert Value(s[..1]) == b / 128;
    ByteBitsStep(b, 1);
    ByteBitsStep(b, 2);
    ByteBitsStep(b, 3);
    ByteBitsStep(b, 4);
    ByteBitsStep(b, 5);
    ByteBitsStep(b, 6);
    ByteBitsStep(b, 7);
    assert Value(s[..8]) == b / Weight(7);
    assert Weight(7) == 1;
    assert b / 1 == b;
    assert s[..8] == s;
  }

  /** The first k + 1 bits of a byte's expansion are the byte shifted right by 7 - k. */
  lemma ByteBitsStep(b: Byte, k: nat)
    requires 1 <= k < 8
    requires Value(ByteBits(b)[..k]) == b / (2 * Weight(k))
    ensures Value(ByteBits(b)[..k + 1]) == b / Weight(k)
  {
    var s := ByteBits(b);
    assert s[..k + 1] == s[..k] + [s[k]];
    ValueSnoc(s[..k], s[k]);
    HalveStep(b, k);
  }

  lemma HalveStep(b: Byte, k: nat)
    requires 1 <= k < 8
    ensures 2 * (b / (2 * Weight(k))) + (b / Weight(k)) % 2 == b / Weight(k)
  {
    Pow2Table();
    if k == 1 {
      Halve(b, 128, 64);
    } else if k == 2 {
      Halve(b, 64, 32);
    } else if k == 3 {
      Halve(b, 32, 16);
    } else if k == 4 {
      Halve(b, 16, 8);
    } else if k == 5 {
      Halve(b, 8, 4);
    } else if k == 6 {
      Halve(b, 4, 2);
    } else if k == 7 {
      Halve(b, 2, 1);
    }
  }

  lemma Halve(b: Byte, w2: nat, w: nat)
    requires (w2, w) in {(128, 64), (64, 32), (32, 16), (16, 8), (8, 4), (4, 2), (2, 1)}
    ensures 2 * (b / w2) + (b / w) % 2 == b / w
  {
  }

  lemma Pow2Table()
    ensures Pow2(0) == 1 && Pow2(1) == 2 && Pow2(2) == 4 && Pow2(3) == 8
    ensures Pow2(4) == 16 && Pow2(5) == 32 && Pow2(6) == 64 && Pow2(7) == 128
    ensures Pow2(8) == 256
  {
  }

  /** Dropping 8k bits of an expansion is the expansion of the dropped bytes. */
  lemma {:induction false} FromBufferDrop(bytes: seq<Byte>, k: nat)
    requires k <= |bytes|
    ensures FromBuffer(bytes)[8 * k..] == FromBuffer(bytes[k..])
  {
    if k > 0 {
      assert FromBuffer(bytes)[8..] == FromBuffer(bytes[1..]);
      FromBufferDrop(bytes[1..], k - 1);
      assert bytes[1..][k - 1..] == bytes[k..];
    }
  }

  /** Round trip: `fromBuffer(b).toBuffer()` is b. */
  lemma {:induction false} ToBufferFromBuffer(bytes: seq<Byte>)
    ensures ToBuffer(FromBuffer(bytes)) == bytes
  {
    if |bytes| > 0 {
      var bits := FromBuffer(bytes);
      assert bits[..8] == ByteBits(bytes[0]);
      assert Padded(bits, 8) == ByteBits(bytes[0]);
      ValueByteBits(bytes[0]);
      assert bits[8..] == FromBuffer(bytes[1..]);
      ToBufferFromBuffer(bytes[1..]);
    }
  }

  /**
    Reading 16 bits of an expansion yields the first two bytes as a
    big-endian 16-bit value and leaves the expansion of the other bytes.
  */
  lemma ShiftSixteen(bytes: seq<Byte>)
    requires |bytes| >= 2
    ensures Shift(FromBuffer(bytes), 16).0 == bytes[0] as int * 256 + bytes[1]
    ensures Shift(FromBuffer(bytes), 16).1 == FromBuffer(bytes[2..])
  {
    var hi, lo, rest := ByteBits(bytes[0]), ByteBits(bytes[1]), FromBuffer(bytes[2..]);
    FromBufferTwo(bytes);
    SplitSixteen(hi, lo, rest);
    ValueTwoBytes(bytes[0], bytes[1]);
  }

  lemma FromBufferTwo(bytes: seq<Byte>)
    requires |bytes| >= 2
    ensures FromBuffer(bytes) == ByteBits(bytes[0]) + (ByteBits(bytes[1]) + FromBuffer(bytes[2..]))
  {
    assert FromBuffer(bytes[1..]) == ByteBits(bytes[1]) + FromBuffer(bytes[1..][1..]);
    assert bytes[1..][1..] == bytes[2..];
  }

  /** Sixteen bits of two expanded bytes read as their big-endian value. */
  lemma ValueTwoBytes(x: Byte, y: Byte)
    ensures Value(ByteBits(x) + ByteBits(y)) == x as int * 256 + y as int
  {
    ValueAppend(ByteBits(x), ByteBits(y));
    ValueByteBits(x);
    ValueByteBits(y);
    assert Pow2(8) == 256 by {
      Pow2Table();
    }
  }

  lemma SplitSixteen(hi: seq<Bit>, lo: seq<Bit>, rest: seq<Bit>)
    requires |hi| == 8 && |lo| == 8
    ensures Padded(hi + (lo + rest), 16) == hi + lo
    ensures (hi + (lo + rest))[16..] == rest
  {
    assert New(0) == [];
  }

  /** The bytes 0, 1, ..., 11. */
  const Counting: seq<Byte> := seq(12, (j: int) requires 0 <= j < 12 => j as Byte)

  /**
    Six successive `shiftUint(16)` reads of `fromBuffer([0, 1, ..., 11])`
    give (2i << 8) + (2i + 1) for i = 0 .. 5: read i starts on the 96-bit
    expansion with its first 16i bits gone, which is exactly what read
    i - 1 leaves behind.
  */
  lemma ShiftSixteenCounting()
    ensures |FromBuffer(Counting)| == 96
    ensures forall i :: 0 <= i < 6 ==> Shift(FromBuffer(Counting)[16 * i..], 16).1 == FromBuffer(Counting)[16 * (i + 1)..]
    ensures forall i :: 0 <= i < 6 ==> Shift(FromBuffer(Counting)[16 * i..], 16).0 == (2 * i) * 256 + (2 * i + 1)
  {
    CountingAt(0);
    forall i | 0 <= i < 6
      ensures Shift(FromBuffer(Counting)[16 * i..], 16).0 == (2 * i) * 256 + (2 * i + 1)
    {
      ShiftSixteenAt(i);
    }
  }

  lemma ShiftSixteenAt(i: nat)
    requires i < 6
    ensures Shift(FromBuffer(Counting)[16 * i..], 16).0 == (2 * i) * 256 + (2 * i + 1)
  {
    FromBufferDrop(Counting, 2 * i);
    var rest := Counting[2 * i..];
    assert 8 * (2 * i) == 16 * i;
    ShiftSixteen(rest);
    CountingAt(2 * i);
    CountingAt(2 * i + 1);
  }

  lemma CountingAt(j: nat)
    requires j < 12
    ensures |Counting| == 12 && Counting[j] as int == j
  {
  }

  /** Array `reverse` on a bit sequence. */
  function Reverse(s: seq<Bit>): (r: seq<Bit>)
    ensures |r| == |s|
    ensures forall i :: 0 <= i < |s| ==> r[i] == s[|s| - 1 - i]
  {
    if |s| == 0 then [] else Reverse(s[1..]) + [s[0]]
  }

  /**
    Splicing the first nybble off `fromBuffer([0b11001010, 0b10010110])`
    gives 1,1,0,0; reversing it and pushing it onto what is left gives
    1,0,1,0,1,0,0,1,0,1,1,0,0,0,1,1.
  */
  lemma SpliceReverseExample()
    ensures FromBuffer([202, 150])[..4] == [1, 1, 0, 0]
    ensures FromBuffer([202, 150])[4..] + Reverse(FromBuffer([202, 150])[..4])
            == [1, 0, 1, 0, 1, 0, 0, 1, 0, 1, 1, 0, 0, 0, 1, 1]
  {
    var bits := FromBuffer([202, 150]);
    FromBufferExample();
    assert bits[..4] == [1, 1, 0, 0];
    ReverseNybble();
  }

  lemma ReverseNybble()
    ensures Reverse([1, 1, 0, 0]) == [0, 0, 1, 1]
  {
    var s: seq<Bit> := [1, 1, 0, 0];
    var r := Reverse(s);
    assert r[0] == 0 && r[1] == 0 && r[2] == 1 && r[3] == 1;
  }

  lemma FromBufferExample()
    ensures FromBuffer([202, 150]) == [1, 1, 0, 0, 1, 0, 1, 0, 1, 0, 0, 1, 0, 1, 1, 0]
  {
    var bytes: seq<Byte> := [202, 150];
    FromBufferTwo(bytes);
    assert bytes[2..] == [];
    ByteBits202();
    ByteBits150();
  }

  lemma WeightTable()
    ensures Weight(0) == 128 && Weight(1) == 64 && Weight(2) == 32 && Weight(3) == 16
    ensures Weight(4) == 8 && Weight(5) == 4 && Weight(6) == 2 && Weight(7) == 1
  {
    Pow2Table();
  }

  lemma ByteBits202()
    ensures ByteBits(202) == [1, 1, 0, 0, 1, 0, 1, 0]
  {
    WeightTable();
  }

  lemma ByteBits150()
    ensures ByteBits(150) == [1, 0, 0, 1, 0, 1, 1, 0]
  {
    WeightTable();
  }
}

=== FILE: hook.dfy ===
/**
  A model of the hook pipeline runner: a value is threaded through a queue
  of filters. `await` is taken as the identity on plain values and as
  "the value the promise resolves to" on asynchronous results, so a
  synchronous and an asynchronous filter computing the same function are
  interchangeable.
*/
module Hook {

  /** One queue entry: a filter returning its result directly, one returning it through a promise, or anything that is not a function. */
  datatype Entry<!T> = Sync(f: T -> T) | Async(g: T -> T) | NotFunction

  /** The queue argument: either not an array at all, or an array of entries. */
  datatype Queue<!T> = NotArray | Entries(items: seq<Entry<T>>)

  /** The function an entry applies once awaited. */
  function Awaited<T>(e: Entry<T>): T -> T
    requires !e.NotFunction?
  {
    match e
    case Sync(f) => f
    case Async(g) => g
  }

  /** The function entries of a queue, in queue order. */
  function Filters<T>(items: seq<Entry<T>>): (r: seq<T -> T>)
    ensures |r| <= |items|
  {
    if |items| == 0 then []
    else if items[0].NotFunction? then Filters(items[1..])
    else [Awaited(items[0])] + Filters(items[1..])
  }

  /** Left fold: the first function sees x, each later one the previous output. */
  function Compose<T>(fs: seq<T -> T>, x: T): T
  {
    if |fs| == 0 then x else Compose(fs[1..], fs[0](x))
  }

  /** The `for ... of` loop of the runner over the entries. */
  function RunItems<T>(items: seq<Entry<T>>, data: T): (r: T)
    ensures r == Compose(Filters(items), data)
  {
    if |items| == 0 then data
    else if items[0].NotFunction? then RunItems(items[1..], data)
    else RunItems(items[1..], Awaited(items[0])(data))
  }

  /**
    The pipeline runner: a queue that is not an array leaves the value
    unchanged; otherwise the result is the left fold of the function
    entries over the value, in queue order.
  */
  function Run<T>(queue: Queue<T>, data: T): (r: T)
    ensures queue.NotArray? ==> r == data
    ensures queue.Entries? ==> r == Compose(Filters(queue.items), data)
  {
    match queue
    case NotArray => data
    case Entries(items) => RunItems(items, data)
  }

  /** An empty queue leaves the value unchanged. */
  lemma RunEmpty<T>(data: T)
    ensures Run(Entries([]), data) == data
  {
  }

  lemma {:induction false} FiltersAppend<T>(a: seq<Entry<T>>, b: seq<Entry<T>>)
    ensures Filters(a + b) == Filters(a) + Filters(b)
  {
    if |a| == 0 {
      assert a + b == b;
    } else {
      assert (a + b)[1..] == a[1..] + b;
      FiltersAppend(a[1..], b);
    }
  }

  lemma {:induction false} ComposeAppend<T>(fs: seq<T -> T>, gs: seq<T -> T>, x: T)
    ensures Compose(fs + gs, x) == Compose(gs, Compose(fs, x))
  {
    if |fs| == 0 {
      assert fs + gs == gs;
    } else {
      assert (fs + gs)[1..] == fs[1..] + gs;
      ComposeAppend(fs[1..], gs, fs[0](x));
    }
  }

  /** Running a + b is running a, then running b on its output. */
  lemma RunAppend<T>(a: seq<Entry<T>>, b: seq<Entry<T>>, data: T)
    ensures Run(Entries(a + b), data) == Run(Entries(b), Run(Entries(a), data))
  {
    FiltersAppend(a, b);
    ComposeAppend(Filters(a), Filters(b), data);
  }

  /** An entry that is not a function has no effect wherever it stands. */
  lemma RunSkipsNonFunction<T>(a: seq<Entry<T>>, b: seq<Entry<T>>, data: T)
    ensures Run(Entries(a + [NotFunction] + b), data) == Run(Entries(a + b), data)
  {
    FiltersAppend(a + [NotFunction], b);
    FiltersAppend(a, [NotFunction]);
    FiltersAppend(a, b);
    assert Filters([NotFunction]) == Filters<T>([]) by {
      var one: seq<Entry<T>> := [NotFunction];
      assert one[1..] == [];
    }
    assert Filters(a + [NotFunction]) == Filters(a);
  }

  /** A synchronous and an asynchronous filter computing f give the same pipeline result. */
  lemma RunSyncAsync<T>(a: seq<Entry<T>>, f: T -> T, b: seq<Entry<T>>, data: T)
    ensures Run(Entries(a + [Sync(f)] + b), data) == Run(Entries(a + [Async(f)] + b), data)
  {
    FiltersAppend(a + [Sync(f)], b);
    FiltersAppend(a, [Sync(f)]);
    FiltersAppend(a + [Async(f)], b);
    FiltersAppend(a, [Async(f)]);
  }

  /** Upper case of one ASCII character: 'a' .. 'z' move down by 32, others stay. */
  function UpperChar(c: char): char
  {
    if 'a' <= c <= 'z' then (c as int - 32) as char else c
  }

  /** `String.prototype.toUpperCase` on the ASCII letters. */
  function Upper(s: string): (r: string)
    ensures |r| == |s|
    ensures forall i :: 0 <= i < |s| ==> r[i] == UpperChar(s[i])
  {
    if |s| == 0 then []
    else [UpperChar(s[0])] + Upper(s[1..])
  }

  /**
    The runner on a string: no queue and an empty queue return the input;
    an upper-casing filter gives the same result whether it is synchronous
    or asynchronous.
  */
  lemma UpperCaseExamples()
    ensures Run(NotArray, "abcd") == "abcd"
    ensures Run(Entries([]), "efgh") == "efgh"
    ensures Run(Entries([Sync(Upper)]), "ijkl") == "IJKL"
    ensures Run(Entries([Async(Upper)]), "mnop") == "MNOP"
  {
    assert Filters([Sync(Upper)]) == [Upper];
    assert Filters([Async(Upper)]) == [Upper];
    UpperExamples();
  }

  lemma UpperExamples()
    ensures Upper("ijkl") == "IJKL" && Upper("mnop") == "MNOP"
  {
  }
}

=== FILE: path_finder.dfy ===
/**
  The path-finder record of `_findPath` and its `recv` handler. A search
  keeps, for every peer id it has heard of, the slot path to reach it and
  the accumulated round-trip time. Every `pres` answer from this peer or
  from a peer already known extends the table with the ids not yet known
  (first discovery wins), settles the search when the target appears, and
  otherwise asks each newly known peer for its own connections.
*/
module PathFinder {
  import opened Wrappers
  import opened PeerState

  /** `a + b` on round-trip times; an undefined operand gives NaN, modelled as undefined. */
  function AddRtt(a: Option<int>, b: Option<int>): Option<int>
  {
    if a.Some? && b.Some? then Some(a.value + b.value) else None
  }

  /**
    The entry a newly heard peer gets. `base` is the sender's entry, or
    None when the sender is this peer itself.
  */
  function Extend(base: Option<Known>, info: PeerInfo): Known
  {
    match base
    case None => Known(AddRtt(info.rtt, Some(0)), [info.slot])
    case Some(b) => Known(AddRtt(info.rtt, b.rtt), b.path + [info.slot])
  }

  /** The `preq` exploring the peer at the end of `path`: sent over path[0] with hops path[1..]. */
  function PreqMessage(me: Id, fid: Id, path: seq<int>): Message
    requires |path| >= 1
  {
    Message(Preq, me, Some(fid), Opaque, path[1..], [])
  }

  /** Whether the first hop of a path names a live entry of the table. */
  ghost predicate Routable(table: seq<Option<Handle>>, path: seq<int>)
  {
    |path| >= 1 && 0 <= path[0] < |table| && table[path[0]].Some?
  }

  /** Whether e sends the `preq` for `path` on the connection at index path[0]. */
  ghost predicate PreqAlong(table: seq<Option<Handle>>, me: Id, fid: Id, path: seq<int>, e: Effect)
  {
    && |path| >= 1
    && e.Transmit?
    && 0 <= path[0] < |table|
    && table[path[0]] == Some(e.to)
    && e.msg == PreqMessage(me, fid, path)
  }

  /** The ids a peer list mentions. */
  function IdsOf(peers: seq<PeerInfo>): set<Option<Id>>
  {
    set j | 0 <= j < |peers| :: peers[j].id
  }

  lemma IdsOfCons(peers: seq<PeerInfo>)
    requires |peers| > 0
    ensures IdsOf(peers) == {peers[0].id} + IdsOf(peers[1..])
  {
    assert forall j :: 1 <= j < |peers| ==> peers[j] == peers[1..][j - 1];
  }

  /** The first entry of a peer list that carries id key. */
  function FirstWith(peers: seq<PeerInfo>, key: Option<Id>): (info: PeerInfo)
    requires key in IdsOf(peers)
    ensures info in peers && info.id == key
  {
    if peers[0].id == key then peers[0]
    else
      assert key in IdsOf(peers[1..]) by {
        var j :| 0 <= j < |peers| && peers[j].id == key;
        assert peers[1..][j - 1] == peers[j];
      }
      FirstWith(peers[1..], key)
  }

  /** `FirstWith` picks the earliest entry carrying the id: every entry before it carries another id. */
  lemma {:induction false} FirstWithIsFirst(peers: seq<PeerInfo>, key: Option<Id>) returns (j: nat)
    requires key in IdsOf(peers)
    ensures j < |peers| && peers[j] == FirstWith(peers, key)
    ensures forall i :: 0 <= i < j ==> peers[i].id != key
  {
    if peers[0].id == key {
      j := 0;
    } else {
      assert key in IdsOf(peers[1..]) by {
        var i :| 0 <= i < |peers| && peers[i].id == key;
        assert peers[1..][i - 1] == peers[i];
      }
      var j' := FirstWithIsFirst(peers[1..], key);
      j := j' + 1;
      assert forall i :: 1 <= i < j ==> peers[i] == peers[1..][i - 1];
    }
  }

  /** The finder after a step of `recv`, the sends made, and whether it threw. */
  datatype Scanned = Scanned(finder: Finder, effects: seq<Effect>, fault: bool)

  /**
    The `for (const peer of message.p)` loop of `recv`. Known ids are
    skipped; a new id gets the entry `Extend(base, peer)`; the target id
    settles the search with its path; any other new id is explored with a
    `preq` on `connections[path[0]]`, and a missing connection there throws.
  */
  function Scan(me: Id, fid: Id, table: seq<Option<Handle>>, base: Option<Known>,
                f: Finder, peers: seq<PeerInfo>): (r: Scanned)
    requires !f.resolved
    ensures r.finder.target == f.target
    ensures forall key :: key in f.known ==> key in r.finder.known && r.finder.known[key] == f.known[key]
    ensures r.finder.resolved <==> Some(f.target) in r.finder.known && Some(f.target) !in f.known
    ensures r.finder.resolved ==>
              && !r.fault && r.finder.deadline.None? && |r.effects| >= 1
              && r.effects[|r.effects| - 1] == Resolve(fid, Some(r.finder.known[Some(f.target)].path))
    ensures !r.finder.resolved ==> r.finder.deadline == f.deadline
    ensures r.fault ==> !r.finder.resolved
    decreases |peers|
  {
    if |peers| == 0 then Scanned(f, [], false)
    else
      var info := peers[0];
      if info.id in f.known then
        Scan(me, fid, table, base, f, peers[1..])
      else
        var entry := Extend(base, info);
        var f1 := f.(known := f.known[info.id := entry]);
        if info.id == Some(f.target) then
          Scanned(f1.(resolved := true, deadline := None), [Resolve(fid, Some(entry.path))], false)
        else if 0 <= entry.path[0] < |table| && table[entry.path[0]].Some? then
          var send := Transmit(table[entry.path[0]].value, PreqMessage(me, fid, entry.path));
          var rest := Scan(me, fid, table, base, f1, peers[1..]);
          Scanned(rest.finder, [send] + rest.effects, rest.fault)
        else
          Scanned(f1, [], true)
  }

  /**
    Every entry a scan adds is built from the first listed peer carrying
    its id: new ids are first-discovery-wins.
  */
  lemma {:induction false} ScanAdded(me: Id, fid: Id, table: seq<Option<Handle>>, base: Option<Known>,
                                     f: Finder, peers: seq<PeerInfo>)
    requires !f.resolved
    ensures var r := Scan(me, fid, table, base, f, peers);
            forall key :: key in r.finder.known && key !in f.known ==>
              key in IdsOf(peers) && r.finder.known[key] == Extend(base, FirstWith(peers, key))
    decreases |peers|
  {
    if |peers| > 0 {
      var info := peers[0];
      IdsOfCons(peers);
      if info.id in f.known {
        ScanAdded(me, fid, table, base, f, peers[1..]);
      } else {
        var entry := Extend(base, info);
        var f1 := f.(known := f.known[info.id := entry]);
        if info.id != Some(f.target) && 0 <= entry.path[0] < |table| && table[entry.path[0]].Some? {
          ScanAdded(me, fid, table, base, f1, peers[1..]);
        }
      }
    }
  }

  /** A first entry whose id is already known is skipped. */
  lemma ScanSkip(me: Id, fid: Id, table: seq<Option<Handle>>, base: Option<Known>,
                 f: Finder, peers: seq<PeerInfo>)
    requires !f.resolved && |peers| > 0 && peers[0].id in f.known
    ensures Scan(me, fid, table, base, f, peers) == Scan(me, fid, table, base, f, peers[1..])
  {
  }

  /** A first entry carrying the target settles the scan. */
  lemma ScanSettle(me: Id, fid: Id, table: seq<Option<Handle>>, base: Option<Known>,
                   f: Finder, peers: seq<PeerInfo>)
    requires !f.resolved && |peers| > 0 && peers[0].id !in f.known && peers[0].id == Some(f.target)
    ensures var entry := Extend(base, peers[0]);
            Scan(me, fid, table, base, f, peers)
              == Scanned(f.(known := f.known[peers[0].id := entry], resolved := true, deadline := None),
                         [Resolve(fid, Some(entry.path))], false)
  {
  }

  /** A new first entry whose first hop is an empty table entry throws. */
  lemma ScanStuck(me: Id, fid: Id, table: seq<Option<Handle>>, base: Option<Known>,
                  f: Finder, peers: seq<PeerInfo>)
    requires !f.resolved && |peers| > 0 && peers[0].id !in f.known && peers[0].id != Some(f.target)
    requires !Routable(table, Extend(base, peers[0]).path)
    ensures Scan(me, fid, table, base, f, peers)
              == Scanned(f.(known := f.known[peers[0].id := Extend(base, peers[0])]), [], true)
  {
  }

  /** Any other new first entry is recorded and sent its `preq` before the rest is scanned. */
  lemma ScanSend(me: Id, fid: Id, table: seq<Option<Handle>>, base: Option<Known>,
                 f: Finder, peers: seq<PeerInfo>)
    requires !f.resolved && |peers| > 0 && peers[0].id !in f.known && peers[0].id != Some(f.target)
    requires Routable(table, Extend(base, peers[0]).path)
    ensures var entry := Extend(base, peers[0]);
            var rest := Scan(me, fid, table, base, f.(known := f.known[peers[0].id := entry]), peers[1..]);
            && Scan(me, fid, table, base, f, peers)
                 == Scanned(rest.finder, [Transmit(table[entry.path[0]].value, PreqMessage(me, fid, entry.path))] + rest.effects, rest.fault)
            && rest.finder.known[peers[0].id] == entry
  {
  }

  /** A scan that neither settles nor throws records every listed id. */
  lemma {:induction false} ScanCovers(me: Id, fid: Id, table: seq<Option<Handle>>, base: Option<Known>,
                                      f: Finder, peers: seq<PeerInfo>)
    requires !f.resolved
    ensures var r := Scan(me, fid, table, base, f, peers);
            !r.fault && !r.finder.resolved ==> IdsOf(peers) <= r.finder.known.Keys
    decreases |peers|
  {
    if |peers| > 0 {
      var info := peers[0];
      var f1 := f.(known := f.known[info.id := Extend(base, info)]);
      IdsOfCons(peers);
      if info.id in f.known {
        ScanSkip(me, fid, table, base, f, peers);
        ScanCovers(me, fid, table, base, f, peers[1..]);
      } else if info.id != Some(f.target) && Routable(table, Extend(base, info).path) {
        ScanSend(me, fid, table, base, f, peers);
        ScanCovers(me, fid, table, base, f1, peers[1..]);
      }
    }
  }

  /**
    What a scan sends and why it throws, in both directions: every effect
    but a final settlement is the `preq` along the path of an entry the
    scan added; every added entry other than the target's is sent its
    `preq` unless the scan threw; and a throw comes from an added entry
    whose first hop is an empty table entry.
  */
  lemma ScanExplained(me: Id, fid: Id, table: seq<Option<Handle>>, base: Option<Known>,
                      f: Finder, peers: seq<PeerInfo>)
    requires !f.resolved
    ensures var r := Scan(me, fid, table, base, f, peers);
            && (r.fault ==> exists key :: key in r.finder.known && key !in f.known && !Routable(table, r.finder.known[key].path))
            && (forall k :: 0 <= k < |r.effects| ==>
                  || (k == |r.effects| - 1 && r.finder.resolved)
                  || exists key :: key in r.finder.known && key !in f.known &&
                       PreqAlong(table, me, fid, r.finder.known[key].path, r.effects[k]))
            && (!r.fault ==> forall key :: key in r.finder.known && key !in f.known && key != Some(f.target) ==>
                  exists k :: 0 <= k < |r.effects| && PreqAlong(table, me, fid, r.finder.known[key].path, r.effects[k]))
  {
    var r := Scan(me, fid, table, base, f, peers);
    if r.fault {
      var key := ScanFaultKey(me, fid, table, base, f, peers);
    }
    forall k | 0 <= k < |r.effects| && !(k == |r.effects| - 1 && r.finder.resolved)
      ensures exists key :: key in r.finder.known && key !in f.known &&
                PreqAlong(table, me, fid, r.finder.known[key].path, r.effects[k])
    {
      var key := ScanSendAt(me, fid, table, base, f, peers, k);
    }
    if !r.fault {
      forall key | key in r.finder.known && key !in f.known && key != Some(f.target)
        ensures exists k :: 0 <= k < |r.effects| && PreqAlong(table, me, fid, r.finder.known[key].path, r.effects[k])
      {
        var k := ScanExplores(me, fid, table, base, f, peers, key);
      }
    }
  }

  /** A scan that throws has added an entry whose first hop is an empty table entry. */
  lemma {:induction false} ScanFaultKey(me: Id, fid: Id, table: seq<Option<Handle>>, base: Option<Known>,
                                        f: Finder, peers: seq<PeerInfo>) returns (key: Option<Id>)
    requires !f.resolved && Scan(me, fid, table, base, f, peers).fault
    ensures var r := Scan(me, fid, table, base, f, peers);
            key in r.finder.known && key !in f.known && !Routable(table, r.finder.known[key].path)
    decreases |peers|
  {
    var info := peers[0];
    var entry := Extend(base, info);
    var f1 := f.(known := f.known[info.id := entry]);
    if info.id in f.known {
      ScanSkip(me, fid, table, base, f, peers);
      key := ScanFaultKey(me, fid, table, base, f, peers[1..]);
    } else if info.id == Some(f.target) {
      ScanSettle(me, fid, table, base, f, peers);
      assert false;
    } else if Routable(table, entry.path) {
      ScanSend(me, fid, table, base, f, peers);
      key := ScanFaultKey(me, fid, table, base, f1, peers[1..]);
    } else {
      ScanStuck(me, fid, table, base, f, peers);
      key := info.id;
    }
  }

  /** Effect k of a scan, when it is not the final settlement, is the `preq` of an entry the scan added. */
  lemma {:induction false} ScanSendAt(me: Id, fid: Id, table: seq<Option<Handle>>, base: Option<Known>,
                                      f: Finder, peers: seq<PeerInfo>, k: nat) returns (key: Option<Id>)
    requires !f.resolved
    requires var r := Scan(me, fid, table, base, f, peers);
             k < |r.effects| && !(k == |r.effects| - 1 && r.finder.resolved)
    ensures var r := Scan(me, fid, table, base, f, peers);
            key in r.finder.known && key !in f.known && PreqAlong(table, me, fid, r.finder.known[key].path, r.effects[k])
    decreases |peers|, 1
  {
    var info := peers[0];
    if info.id in f.known {
      ScanSkip(me, fid, table, base, f, peers);
      key := ScanSendAt(me, fid, table, base, f, peers[1..], k);
    } else if info.id == Some(f.target) {
      ScanSettle(me, fid, table, base, f, peers);
      assert false;
    } else if Routable(table, Extend(base, info).path) {
      key := ScanSendAtSent(me, fid, table, base, f, peers, k);
    } else {
      assert false;
    }
  }

  /** `ScanSendAt` when the first entry is new, not the target, and sent its `preq`. */
  lemma {:induction false} ScanSendAtSent(me: Id, fid: Id, table: seq<Option<Handle>>, base: Option<Known>,
                                          f: Finder, peers: seq<PeerInfo>, k: nat) returns (key: Option<Id>)
    requires !f.resolved && |peers| > 0 && peers[0].id !in f.known && peers[0].id != Some(f.target)
    requires Routable(table, Extend(base, peers[0]).path)
    requires var r := Scan(me, fid, table, base, f, peers);
             k < |r.effects| && !(k == |r.effects| - 1 && r.finder.resolved)
    ensures var r := Scan(me, fid, table, base, f, peers);
            key in r.finder.known && key !in f.known && PreqAlong(table, me, fid, r.finder.known[key].path, r.effects[k])
    decreases |peers|, 0
  {
    var info := peers[0];
    var f1 := f.(known := f.known[info.id := Extend(base, info)]);
    ScanSend(me, fid, table, base, f, peers);
    if k == 0 {
      key := info.id;
    } else {
      key := ScanSendAt(me, fid, table, base, f1, peers[1..], k - 1);
    }
  }

  /**
    A scan that does not throw sends the `preq` of every entry it adds
    other than the target's.
  */
  lemma {:induction false} ScanExplores(me: Id, fid: Id, table: seq<Option<Handle>>, base: Option<Known>,
                                        f: Finder, peers: seq<PeerInfo>, key: Option<Id>) returns (k: nat)
    requires !f.resolved
    requires var r := Scan(me, fid, table, base, f, peers);
             !r.fault && key in r.finder.known && key !in f.known && key != Some(f.target)
    ensures var r := Scan(me, fid, table, base, f, peers);
            k < |r.effects| && PreqAlong(table, me, fid, r.finder.known[key].path, r.effects[k])
    decreases |peers|
  {
    var info := peers[0];
    var entry := Extend(base, info);
    var f1 := f.(known := f.known[info.id := entry]);
    if info.id in f.known {
      ScanSkip(me, fid, table, base, f, peers);
      k := ScanExplores(me, fid, table, base, f, peers[1..], key);
    } else if info.id == Some(f.target) {
      ScanSettle(me, fid, table, base, f, peers);
      assert false;
    } else if Routable(table, entry.path) {
      ScanSend(me, fid, table, base, f, peers);
      if key == info.id {
        k := 0;
      } else {
        var j := ScanExplores(me, fid, table, base, f1, peers[1..], key);
        k := j + 1;
      }
    } else {
      assert false;
    }
  }

  /**
    A scan of this peer's own list whose every slot names a live entry,
    and which carries the target, settles on the one-hop path of the first
    entry with the target id.
  */
  lemma {:induction false} ScanFindsListed(me: Id, fid: Id, table: seq<Option<Handle>>, f: Finder, peers: seq<PeerInfo>)
    requires !f.resolved && Some(f.target) !in f.known && Some(f.target) in IdsOf(peers)
    requires forall k :: 0 <= k < |peers| ==> 0 <= peers[k].slot < |table| && table[peers[k].slot].Some?
    ensures var r := Scan(me, fid, table, None, f, peers);
            && !r.fault && r.finder.resolved && |r.effects| >= 1
            && r.effects[|r.effects| - 1] == Resolve(fid, Some([FirstWith(peers, Some(f.target)).slot]))
    decreases |peers|
  {
    var info := peers[0];
    var f1 := f.(known := f.known[info.id := Extend(None, info)]);
    IdsOfCons(peers);
    if info.id in f.known {
      ScanSkip(me, fid, table, None, f, peers);
      ScanFindsListed(me, fid, table, f, peers[1..]);
    } else if info.id == Some(f.target) {
      ScanSettle(me, fid, table, None, f, peers);
    } else {
      assert Routable(table, Extend(None, info).path);
      ScanSend(me, fid, table, None, f, peers);
      ScanFindsListed(me, fid, table, f1, peers[1..]);
    }
  }

  /** Whether entry i of a peer list is the first mention of an id that was not already known. */
  ghost predicate NewAt(known: set<Option<Id>>, peers: seq<PeerInfo>, i: int)
    requires 0 <= i < |peers|
  {
    && peers[i].id !in known
    && forall m :: 0 <= m < i ==> peers[m].id != peers[i].id
  }

  /** Whether the loop of `recv` stops at entry i: it is new and either the target or unroutable. */
  ghost predicate StopsAt(known: set<Option<Id>>, target: Id, table: seq<Option<Handle>>,
                          base: Option<Known>, peers: seq<PeerInfo>, i: int)
    requires 0 <= i < |peers|
  {
    && NewAt(known, peers, i)
    && (peers[i].id == Some(target) || !Routable(table, Extend(base, peers[i]).path))
  }

  /** Dropping the first entry of a peer list and adding its id to the known ids leaves `NewAt` and `StopsAt` unchanged. */
  lemma NewAtShift(known: set<Option<Id>>, target: Id, table: seq<Option<Handle>>,
                   base: Option<Known>, peers: seq<PeerInfo>, i: int)
    requires 1 <= i < |peers|
    ensures NewAt(known, peers, i) <==> NewAt(known + {peers[0].id}, peers[1..], i - 1)
    ensures StopsAt(known, target, table, base, peers, i) <==> StopsAt(known + {peers[0].id}, target, table, base, peers[1..], i - 1)
  {
    assert peers[1..][i - 1] == peers[i];
    assert forall m :: 1 <= m < i ==> peers[1..][m - 1] == peers[m];
    if NewAt(known + {peers[0].id}, peers[1..], i - 1) {
      forall m | 0 <= m < i
        ensures peers[m].id != peers[i].id
      {
        if m > 0 {
          assert peers[1..][m - 1] == peers[m];
        }
      }
    }
  }

  /** Whether j is the least index at which the loop of `recv` stops, or the list length when it never does. */
  ghost predicate StopIndex(known: set<Option<Id>>, target: Id, table: seq<Option<Handle>>,
                            base: Option<Known>, peers: seq<PeerInfo>, j: int)
  {
    && 0 <= j <= |peers|
    && (forall i :: 0 <= i < j ==> !StopsAt(known, target, table, base, peers, i))
    && (j < |peers| ==> StopsAt(known, target, table, base, peers, j))
  }

  /** The stopping index of a list whose first entry does not stop the loop is one past that of its tail. */
  lemma StopIndexShift(known: set<Option<Id>>, target: Id, table: seq<Option<Handle>>,
                       base: Option<Known>, peers: seq<PeerInfo>, j: int)
    requires |peers| > 0 && !StopsAt(known, target, table, base, peers, 0)
    requires StopIndex(known + {peers[0].id}, target, table, base, peers[1..], j)
    ensures StopIndex(known, target, table, base, peers, j + 1)
  {
    forall i | 1 <= i < |peers|
      ensures StopsAt(known, target, table, base, peers, i) <==> StopsAt(known + {peers[0].id}, target, table, base, peers[1..], i - 1)
    {
      NewAtShift(known, target, table, base, peers, i);
    }
  }

  /** Conversely, a positive stopping index of a list is one past that of its tail. */
  lemma StopIndexUnshift(known: set<Option<Id>>, target: Id, table: seq<Option<Handle>>,
                         base: Option<Known>, peers: seq<PeerInfo>, j: int)
    requires j > 0 && StopIndex(known, target, table, base, peers, j)
    ensures StopIndex(known + {peers[0].id}, target, table, base, peers[1..], j - 1)
  {
    forall i | 0 <= i < j - 1
      ensures !StopsAt(known + {peers[0].id}, target, table, base, peers[1..], i)
    {
      NewAtShift(known, target, table, base, peers, i + 1);
    }
    if j < |peers| {
      NewAtShift(known, target, table, base, peers, j);
    }
  }

  /**
    Where the loop of `recv` stops. j is the least index whose entry is
    new and is the target or has an unroutable first hop, or the list
    length when there is none. The search settles exactly when entry j
    is the target and throws exactly when entry j is another id.
  */
  lemma {:induction false} ScanStops(me: Id, fid: Id, table: seq<Option<Handle>>, base: Option<Known>,
                                     f: Finder, peers: seq<PeerInfo>) returns (j: nat)
    requires !f.resolved
    ensures StopIndex(f.known.Keys, f.target, table, base, peers, j)
    ensures var r := Scan(me, fid, table, base, f, peers);
            && (r.finder.resolved <==> j < |peers| && peers[j].id == Some(f.target))
            && (r.fault <==> j < |peers| && peers[j].id != Some(f.target))
    decreases |peers|
  {
    if |peers| == 0 {
      j := 0;
      return;
    }
    var info := peers[0];
    var entry := Extend(base, info);
    var f1 := f.(known := f.known[info.id := entry]);
    if info.id !in f.known && (info.id == Some(f.target) || !Routable(table, entry.path)) {
      if info.id == Some(f.target) {
        ScanSettle(me, fid, table, base, f, peers);
      } else {
        ScanStuck(me, fid, table, base, f, peers);
      }
      j := 0;
      assert StopsAt(f.known.Keys, f.target, table, base, peers, 0);
      return;
    }
    var g := if info.id in f.known then f else f1;
    assert g.known.Keys == f.known.Keys + {info.id};
    if info.id in f.known {
      ScanSkip(me, fid, table, base, f, peers);
    } else {
      ScanSend(me, fid, table, base, f, peers);
    }
    var j' := ScanStops(me, fid, table, base, g, peers[1..]);
    StopIndexShift(f.known.Keys, f.target, table, base, peers, j');
    j := j' + 1;
    assert j < |peers| ==> peers[j] == peers[1..][j'];
  }

  /**
    The ids a scan records: every id listed before the stopping index,
    and no new id first listed after it.
  */
  lemma {:induction false} ScanStopsKeys(me: Id, fid: Id, table: seq<Option<Handle>>, base: Option<Known>,
                                         f: Finder, peers: seq<PeerInfo>, j: nat)
    requires !f.resolved && StopIndex(f.known.Keys, f.target, table, base, peers, j)
    ensures var r := Scan(me, fid, table, base, f, peers);
            && (forall i :: 0 <= i < j ==> peers[i].id in r.finder.known)
            && (forall key :: key in r.finder.known && key !in f.known ==>
                  exists i :: 0 <= i <= j && i < |peers| && peers[i].id == key)
    decreases |peers|
  {
    if |peers| == 0 {
      return;
    }
    if j == 0 {
      assert StopsAt(f.known.Keys, f.target, table, base, peers, 0);
      if peers[0].id == Some(f.target) {
        ScanSettle(me, fid, table, base, f, peers);
      } else {
        ScanStuck(me, fid, table, base, f, peers);
      }
      return;
    }
    var info := peers[0];
    var f1 := f.(known := f.known[info.id := Extend(base, info)]);
    assert !StopsAt(f.known.Keys, f.target, table, base, peers, 0);
    var g := if info.id in f.known then f else f1;
    assert g.known.Keys == f.known.Keys + {info.id};
    if info.id in f.known {
      ScanSkip(me, fid, table, base, f, peers);
    } else {
      ScanSend(me, fid, table, base, f, peers);
    }
    StopIndexUnshift(f.known.Keys, f.target, table, base, peers, j);
    ScanStopsKeys(me, fid, table, base, g, peers[1..], j - 1);
    var r := Scan(me, fid, table, base, f, peers);
    forall key | key in r.finder.known && key !in f.known
      ensures exists i :: 0 <= i <= j && i < |peers| && peers[i].id == key
    {
      if key != info.id {
        var i' :| 0 <= i' <= j - 1 && i' < |peers| - 1 && peers[1..][i'].id == key;
        assert peers[i' + 1].id == key;
      }
    }
  }

  /**
    Every new entry before the stopping point is recorded with the path
    extended from the sender's entry, and its `preq` is among the sends.
  */
  lemma {:induction false} ScanPreqAt(me: Id, fid: Id, table: seq<Option<Handle>>, base: Option<Known>,
                                      f: Finder, peers: seq<PeerInfo>, i: nat) returns (k: nat)
    requires !f.resolved && i < |peers| && NewAt(f.known.Keys, peers, i)
    requires forall m :: 0 <= m <= i ==> !StopsAt(f.known.Keys, f.target, table, base, peers, m)
    ensures var r := Scan(me, fid, table, base, f, peers);
            && peers[i].id in r.finder.known && r.finder.known[peers[i].id] == Extend(base, peers[i])
            && k < |r.effects| && PreqAlong(table, me, fid, Extend(base, peers[i]).path, r.effects[k])
    decreases |peers|
  {
    var info := peers[0];
    var entry := Extend(base, info);
    var f1 := f.(known := f.known[info.id := entry]);
    assert !StopsAt(f.known.Keys, f.target, table, base, peers, 0);
    if i == 0 {
      ScanSend(me, fid, table, base, f, peers);
      k := 0;
      return;
    }
    NewAtShift(f.known.Keys, f.target, table, base, peers, i);
    forall m | 0 <= m <= i - 1
      ensures !StopsAt(f.known.Keys + {info.id}, f.target, table, base, peers[1..], m)
    {
      NewAtShift(f.known.Keys, f.target, table, base, peers, m + 1);
    }
    assert peers[1..][i - 1] == peers[i];
    if info.id in f.known {
      assert f.known.Keys + {info.id} == f.known.Keys;
      ScanSkip(me, fid, table, base, f, peers);
      k := ScanPreqAt(me, fid, table, base, f, peers[1..], i - 1);
    } else {
      assert f1.known.Keys == f.known.Keys + {info.id};
      ScanSend(me, fid, table, base, f, peers);
      var k' := ScanPreqAt(me, fid, table, base, f1, peers[1..], i - 1);
      k := k' + 1;
    }
  }

  /** The entry `recv` extends from: None for this peer itself, else the sender's known entry. */
  function SenderEntry(me: Id, f: Finder, msg: Message): Option<Known>
    requires msg.i == me || Some(msg.i) in f.known
  {
    if msg.i == me then None else Some(f.known[Some(msg.i)])
  }

  /**
    `recv`: a no-op once the search has settled; otherwise the timer is
    re-armed, a sender that is neither this peer nor already known is
    ignored, and the reported peer list is scanned. A payload that is not
    a list throws.
  */
  function Recv(me: Id, timeout: int, table: seq<Option<Handle>>, fid: Id,
                f: Finder, msg: Message, now: int): (r: Scanned)
    ensures f.resolved ==> r == Scanned(f, [], false)
    ensures r.finder.target == f.target
    ensures !f.resolved && !r.finder.resolved ==> r.finder.deadline == Some(now + timeout)
    ensures forall key :: key in f.known ==> key in r.finder.known && r.finder.known[key] == f.known[key]
    ensures msg.i != me && Some(msg.i) !in f.known ==> r.finder.known == f.known && r.effects == [] && !r.fault
    ensures forall key :: key in r.finder.known && key !in f.known ==>
              && (msg.i == me || Some(msg.i) in f.known) && msg.p.Peers? && key in IdsOf(msg.p.list)
    ensures !f.resolved && (msg.i == me || Some(msg.i) in f.known) && msg.p.Peers? && !r.fault && !r.finder.resolved ==>
              IdsOf(msg.p.list) <= r.finder.known.Keys
    ensures r.fault ==> !f.resolved && !r.finder.resolved && (msg.i == me || Some(msg.i) in f.known)
    ensures !f.resolved ==> (r.finder.resolved <==> Some(f.target) in r.finder.known && Some(f.target) !in f.known)
    ensures !f.resolved && r.finder.resolved ==>
              && !r.fault && r.finder.deadline.None? && |r.effects| >= 1
              && r.effects[|r.effects| - 1] == Resolve(fid, Some(r.finder.known[Some(f.target)].path))
    ensures r.effects != [] ==> !f.resolved && (msg.i == me || Some(msg.i) in f.known) && msg.p.Peers?
  {
    if f.resolved then Scanned(f, [], false)
    else
      var f0 := f.(deadline := Some(now + timeout));
      if msg.i != me && Some(msg.i) !in f0.known then Scanned(f0, [], false)
      else
        match msg.p
        case Peers(list) =>
          ScanAdded(me, fid, table, SenderEntry(me, f, msg), f0, list);
          ScanCovers(me, fid, table, SenderEntry(me, f, msg), f0, list);
          Scan(me, fid, table, SenderEntry(me, f, msg), f0, list)
        case _ => Scanned(f0, [], true)
  }

  /** A pending search hearing a list from this peer or a known one scans that list with the timer re-armed. */
  lemma RecvIsScan(me: Id, timeout: int, table: seq<Option<Handle>>, fid: Id,
                   f: Finder, msg: Message, now: int)
    requires !f.resolved && (msg.i == me || Some(msg.i) in f.known) && msg.p.Peers?
    ensures Recv(me, timeout, table, fid, f, msg, now)
              == Scan(me, fid, table, SenderEntry(me, f, msg), f.(deadline := Some(now + timeout)), msg.p.list)
  {
  }

  /** The entries `recv` adds come from the first listed peer with each id, extended from the sender's entry. */
  lemma RecvAdded(me: Id, timeout: int, table: seq<Option<Handle>>, fid: Id,
                  f: Finder, msg: Message, now: int)
    ensures var r := Recv(me, timeout, table, fid, f, msg, now);
            forall key :: key in r.finder.known && key !in f.known ==>
              && (msg.i == me || Some(msg.i) in f.known)
              && msg.p.Peers? && key in IdsOf(msg.p.list)
              && r.finder.known[key] == Extend(SenderEntry(me, f, msg), FirstWith(msg.p.list, key))
  {
    if !f.resolved && (msg.i == me || Some(msg.i) in f.known) && msg.p.Peers? {
      var f0 := f.(deadline := Some(now + timeout));
      ScanAdded(me, fid, table, SenderEntry(me, f, msg), f0, msg.p.list);
    }
  }

  /** `recv` throws only on a payload that is not a list or on a new entry whose first hop is an empty entry. */
  lemma RecvFault(me: Id, timeout: int, table: seq<Option<Handle>>, fid: Id,
                  f: Finder, msg: Message, now: int)
    ensures var r := Recv(me, timeout, table, fid, f, msg, now);
            r.fault ==> !msg.p.Peers? || exists key :: key in r.finder.known && key !in f.known && !Routable(table, r.finder.known[key].path)
  {
    var r := Recv(me, timeout, table, fid, f, msg, now);
    if r.fault && msg.p.Peers? {
      var f0 := f.(deadline := Some(now + timeout));
      var key := ScanFaultKey(me, fid, table, SenderEntry(me, f, msg), f0, msg.p.list);
    }
  }

  /**
    Every effect of `recv` but a final settlement is the `preq` of a new
    entry, and every new entry other than the target's is sent its `preq`
    unless the step threw.
  */
  lemma RecvSends(me: Id, timeout: int, table: seq<Option<Handle>>, fid: Id,
                  f: Finder, msg: Message, now: int)
    ensures var r := Recv(me, timeout, table, fid, f, msg, now);
            && (forall k :: 0 <= k < |r.effects| ==>
                  || (k == |r.effects| - 1 && r.finder.resolved && !f.resolved)
                  || exists key :: key in r.finder.known && key !in f.known &&
                       PreqAlong(table, me, fid, r.finder.known[key].path, r.effects[k]))
            && (!r.fault ==> forall key :: key in r.finder.known && key !in f.known && key != Some(f.target) ==>
                  exists k :: 0 <= k < |r.effects| && PreqAlong(table, me, fid, r.finder.known[key].path, r.effects[k]))
  {
    var r := Recv(me, timeout, table, fid, f, msg, now);
    if !f.resolved && (msg.i == me || Some(msg.i) in f.known) && msg.p.Peers? {
      var f0 := f.(deadline := Some(now + timeout));
      assert r == Scan(me, fid, table, SenderEntry(me, f, msg), f0, msg.p.list);
      ScanExplained(me, fid, table, SenderEntry(me, f, msg), f0, msg.p.list);
    } else {
      assert r.effects == [] && r.finder.known == f.known;
    }
  }

  /**
    `Recv` counterpart of `ScanStops` and `ScanStopsKeys`: a pending search
    hearing a list from this peer or a known one records every id listed
    before the stopping index, settles exactly when the entry there is the
    target, throws exactly when it is another id, and records no new id
    first listed after it.
  */
  lemma RecvStops(me: Id, timeout: int, table: seq<Option<Handle>>, fid: Id,
                  f: Finder, msg: Message, now: int) returns (j: nat)
    requires !f.resolved && (msg.i == me || Some(msg.i) in f.known) && msg.p.Peers?
    ensures StopIndex(f.known.Keys, f.target, table, SenderEntry(me, f, msg), msg.p.list, j)
    ensures var r := Recv(me, timeout, table, fid, f, msg, now);
            var peers := msg.p.list;
            && (r.finder.resolved <==> j < |peers| && peers[j].id == Some(f.target))
            && (r.fault <==> j < |peers| && peers[j].id != Some(f.target))
            && (forall i :: 0 <= i < j ==> peers[i].id in r.finder.known)
            && (forall key :: key in r.finder.known && key !in f.known ==>
                  exists i :: 0 <= i <= j && i < |peers| && peers[i].id == key)
  {
    var f0 := f.(deadline := Some(now + timeout));
    RecvIsScan(me, timeout, table, fid, f, msg, now);
    j := ScanStops(me, fid, table, SenderEntry(me, f, msg), f0, msg.p.list);
    ScanStopsKeys(me, fid, table, SenderEntry(me, f, msg), f0, msg.p.list, j);
  }

  /** `Recv` counterpart of `ScanPreqAt`: every new entry before the stopping point is recorded and sent its `preq`. */
  lemma RecvPreqAt(me: Id, timeout: int, table: seq<Option<Handle>>, fid: Id,
                   f: Finder, msg: Message, now: int, i: nat) returns (k: nat)
    requires !f.resolved && (msg.i == me || Some(msg.i) in f.known) && msg.p.Peers?
    requires i < |msg.p.list| && NewAt(f.known.Keys, msg.p.list, i)
    requires forall m :: 0 <= m <= i ==> !StopsAt(f.known.Keys, f.target, table, SenderEntry(me, f, msg), msg.p.list, m)
    ensures var r := Recv(me, timeout, table, fid, f, msg, now);
            var info := msg.p.list[i];
            && info.id in r.finder.known && r.finder.known[info.id] == Extend(SenderEntry(me, f, msg), info)
            && k < |r.effects| && PreqAlong(table, me, fid, Extend(SenderEntry(me, f, msg), info).path, r.effects[k])
  {
    var f0 := f.(deadline := Some(now + timeout));
    RecvIsScan(me, timeout, table, fid, f, msg, now);
    k := ScanPreqAt(me, fid, table, SenderEntry(me, f, msg), f0, msg.p.list, i);
  }
}

=== FILE: peer_engine.dfy ===
/**
  The `Peer` message engine as a state machine. Every handler is a pure
  step from a peer state to a `Step`: the new state, the messages sent
  (in order) and whether the handler threw. The clock is the `now`
  parameter; the interval timer and the path-finder timers are explicit
  events (`Tick`, `FinderTimer`); random ids are parameters.
*/
module PeerEngine {
  import opened Wrappers
  import opened PeerState
  import opened PathFinder

  const DefaultInterval: int := 5000
  const DefaultTimeout: int := 2000

  /** Constructor options; None is an option that was not given. */
  datatype Options = Options(id: Option<Id>, interval: Option<int>, timeout: Option<int>)

  /**
    The constructor: defaults overridden by the options, an empty
    connection table, no path finders, and the interval timer running.
    `randomId` stands for the generated default id.
  */
  function Init(options: Options, randomId: Id): (p: Peer)
    ensures Valid(p)
    ensures p.table == [] && p.finders == map[] && p.running
    ensures p.id == (if options.id.Some? then options.id.value else randomId)
    ensures p.interval == (if options.interval.Some? then options.interval.value else DefaultInterval)
    ensures p.timeout == (if options.timeout.Some? then options.timeout.value else DefaultTimeout)
  {
    Peer(
      if options.id.Some? then options.id.value else randomId,
      if options.interval.Some? then options.interval.value else DefaultInterval,
      if options.timeout.Some? then options.timeout.value else DefaultTimeout,
      [], map[], map[], true)
  }

  /**
    `addConnection`: the connection takes the lowest-index empty entry, or
    is appended when there is none; its `slot` becomes its index; no other
    entry and no other connection object changes.
  */
  function AddConnection(p: Peer, h: Handle): (r: Peer)
    ensures |r.table| == (if FirstFree(p.table) < |p.table| then |p.table| else |p.table| + 1)
    ensures r.table[FirstFree(p.table)] == Some(h)
    ensures forall j :: 0 <= j < |p.table| && j != FirstFree(p.table) ==> r.table[j] == p.table[j]
    ensures Some(h) !in p.table ==> h in r.conns && r.conns[h].slot == FirstFree(p.table)
    ensures h in p.conns ==> h in r.conns && r.conns[h].id == p.conns[h].id && r.conns[h].rtt == p.conns[h].rtt
    ensures h !in p.conns ==> h in r.conns && r.conns[h].id.None? && r.conns[h].rtt.None?
    ensures h in r.conns && forall g :: g in p.conns && g != h ==> g in r.conns && r.conns[g] == p.conns[g]
    ensures r.id == p.id && r.finders == p.finders && r.running == p.running
    ensures r.timeout == p.timeout && r.interval == p.interval
  {
    var k := FirstFree(p.table);
    var table := if k < |p.table| then p.table[k := Some(h)] else p.table + [Some(h)];
    assert table[k] == Some(h);
    var slot := IndexOf(table, h).value;
    assert Some(h) !in p.table ==> slot == k by {
      if Some(h) !in p.table {
        assert forall j :: 0 <= j < |table| && j != k ==> table[j] != Some(h);
      }
    }
    var info := if h in p.conns then p.conns[h].(slot := slot) else ConnInfo(slot, None, None);
    p.(table := table, conns := p.conns[h := info])
  }

  /** Admitting a connection that is not live keeps the invariant. */
  lemma AddConnectionKeepsValid(p: Peer, h: Handle)
    requires Valid(p) && Some(h) !in p.table
    ensures Valid(AddConnection(p, h))
  {
    var r := AddConnection(p, h);
    var k := FirstFree(p.table);
    forall i | 0 <= i < |r.table| && r.table[i].Some?
      ensures r.table[i].value in r.conns && r.conns[r.table[i].value].slot == i
    {
      if i != k {
        assert r.table[i] == p.table[i];
      }
    }
  }

  /**
    A connection's `close`: its entry becomes empty and no other entry
    moves; a connection not in the table changes nothing.
  */
  function Close(p: Peer, h: Handle): (r: Peer)
    ensures |r.table| == |p.table|
    ensures r.conns == p.conns && r.id == p.id && r.finders == p.finders && r.running == p.running
    ensures r.timeout == p.timeout && r.interval == p.interval
    ensures Some(h) !in p.table ==> r == p
    ensures Some(h) !in r.table || !SlotsMatch(p.table, p.conns)
    ensures SlotsMatch(p.table, p.conns) ==>
              forall j :: 0 <= j < |p.table| ==> r.table[j] == (if p.table[j] == Some(h) then None else p.table[j])
    ensures Valid(p) ==> Valid(r)
  {
    match IndexOf(p.table, h)
    case None => p
    case Some(i) =>
      var r := p.(table := p.table[i := None]);
      assert SlotsMatch(p.table, p.conns) ==> forall j :: 0 <= j < |p.table| && p.table[j] == Some(h) ==> j == i;
      r
  }

  /** The first of the live connections whose `slot` equals hop. */
  function FindRelay(live: seq<Handle>, conns: map<Handle, ConnInfo>, hop: int): (r: Option<Handle>)
    requires forall h :: h in live ==> h in conns
    ensures r.None? <==> forall h :: h in live ==> conns[h].slot != hop
    ensures r.Some? ==> r.value in live && conns[r.value].slot == hop
  {
    if |live| == 0 then None
    else if conns[live[0]].slot == hop then Some(live[0])
    else FindRelay(live[1..], conns, hop)
  }

  /** The message a relay forwards: first hop removed, the incoming connection's slot appended to `r`. */
  function Relayed(msg: Message, from: Option<ConnInfo>): Message
    requires |msg.h| > 0
  {
    msg.(h := msg.h[1..], r := if from.Some? then msg.r + [from.value.slot] else msg.r)
  }

  /**
    Hop relaying: a message with a non-empty hop list goes only to the
    live connection whose slot is the first hop, with that hop removed and
    the incoming slot appended to `r`; with no such connection it is
    dropped. The peer state never changes.
  */
  function Relay(p: Peer, msg: Message, from: Option<Handle>): (r: Step)
    requires |msg.h| > 0
    requires Admitted(p.table, p.conns)
    requires from.Some? ==> from.value in p.conns
    ensures r.peer == p && !r.fault && |r.effects| <= 1
    ensures r.effects == [] <==>
              forall i :: 0 <= i < |p.table| && p.table[i].Some? ==> p.conns[p.table[i].value].slot != msg.h[0]
    ensures r.effects != [] ==>
              && r.effects[0].Transmit?
              && Some(r.effects[0].to) in p.table
              && p.conns[r.effects[0].to].slot == msg.h[0]
              && r.effects[0].msg.h == msg.h[1..]
              && r.effects[0].msg.r == (if from.Some? then msg.r + [p.conns[from.value].slot] else msg.r)
              && r.effects[0].msg == msg.(h := msg.h[1..], r := r.effects[0].msg.r)
  {
    var live := LiveHandles(p.table);
    var incoming := if from.Some? then Some(p.conns[from.value]) else None;
    match FindRelay(live, p.conns, msg.h[0])
    case None =>
      assert forall i :: 0 <= i < |p.table| && p.table[i].Some? ==> p.table[i].value in live;
      Step(p, [], false)
    case Some(to) => Step(p, [Transmit(to, Relayed(msg, incoming))], false)
  }

  /** The `pong` answering a `ping`: `p` echoed, `i` this peer, `h` the request's `r`, `r` empty. */
  function PongFor(me: Id, ping: Message): Message
  {
    Message(Pong, me, None, ping.p, ping.r, [])
  }

  /**
    A `ping` records the transmitter as the incoming connection's id and is
    answered on that connection. With no incoming connection the handler
    throws.
  */
  function HearPing(p: Peer, msg: Message, from: Option<Handle>): (r: Step)
    requires from.Some? ==> from.value in p.conns
    ensures from.None? ==> r == Step(p, [], true)
    ensures from.Some? ==> var c := from.value;
              && !r.fault
              && r.peer == p.(conns := p.conns[c := p.conns[c].(id := Some(msg.i))])
              && r.effects == [Transmit(c, PongFor(p.id, msg))]
  {
    match from
    case None => Step(p, [], true)
    case Some(c) =>
      Step(p.(conns := p.conns[c := p.conns[c].(id := Some(msg.i))]), [Transmit(c, PongFor(p.id, msg))], false)
  }

  /** `Date.now() - message.p`: undefined (NaN) unless `p` is a timestamp. */
  function RttSample(now: int, payload: Payload): Option<int>
  {
    if payload.Stamp? then Some(now - payload.ms) else None
  }

  /**
    A `pong` with an empty `r` sets the incoming connection's round-trip
    time to now - p and its id to the transmitter; a pong with a non-empty
    `r` changes nothing.
  */
  function HearPong(p: Peer, msg: Message, from: Option<Handle>, now: int): (r: Step)
    requires from.Some? ==> from.value in p.conns
    ensures r.effects == []
    ensures |msg.r| > 0 ==> r == Step(p, [], false)
    ensures |msg.r| == 0 && from.None? ==> r == Step(p, [], true)
    ensures |msg.r| == 0 && from.Some? ==> var c := from.value;
              && !r.fault
              && r.peer == p.(conns := p.conns[c := p.conns[c].(rtt := RttSample(now, msg.p), id := Some(msg.i))])
  {
    if |msg.r| > 0 then Step(p, [], false)
    else match from
      case None => Step(p, [], true)
      case Some(c) =>
        Step(p.(conns := p.conns[c := p.conns[c].(rtt := RttSample(now, msg.p), id := Some(msg.i))]), [], false)
  }

  /** The `pres` answering a `preq`: `fid` echoed, the live connections' `{id, rtt, slot}`, `h` the request's `r`. */
  function PresFor(p: Peer, preq: Message): Message
    requires Admitted(p.table, p.conns)
  {
    Message(Pres, p.id, preq.fid, Peers(Infos(p.table, p.conns)), preq.r, [])
  }

  /** A `preq` is answered on the incoming connection; the state does not change. */
  function HearPreq(p: Peer, msg: Message, from: Option<Handle>): (r: Step)
    requires Admitted(p.table, p.conns)
    ensures r.peer == p
    ensures from.None? ==> r.fault && r.effects == []
    ensures from.Some? ==> !r.fault && r.effects == [Transmit(from.value, PresFor(p, msg))]
  {
    match from
    case None => Step(p, [], true)
    case Some(c) => Step(p, [Transmit(c, PresFor(p, msg))], false)
  }

  /** `!message.fid`: no path-finder id, or the empty string. */
  predicate NoFid(fid: Option<Id>)
  {
    fid.None? || fid.value == ""
  }

  /**
    A `pres` without a path-finder id, or for a search with no record, is
    dropped; otherwise it goes to that record's `recv`.
  */
  function HearPres(p: Peer, msg: Message, now: int): (r: Step)
    ensures r.peer.table == p.table && r.peer.conns == p.conns && r.peer.id == p.id
    ensures r.peer.running == p.running && r.peer.timeout == p.timeout && r.peer.interval == p.interval
    ensures NoFid(msg.fid) || msg.fid.value !in p.finders ==> r == Step(p, [], false)
    ensures !NoFid(msg.fid) && msg.fid.value in p.finders ==>
              var fid := msg.fid.value;
              var s := Recv(p.id, p.timeout, p.table, fid, p.finders[fid], msg, now);
              r == Step(p.(finders := p.finders[fid := s.finder]), s.effects, s.fault)
  {
    if NoFid(msg.fid) || msg.fid.value !in p.finders then Step(p, [], false)
    else
      var fid := msg.fid.value;
      var s := Recv(p.id, p.timeout, p.table, fid, p.finders[fid], msg, now);
      Step(p.(finders := p.finders[fid := s.finder]), s.effects, s.fault)
  }

  /**
    `_hear`: a message with hops is relayed; otherwise it is dispatched on
    its type. A `data` message re-enters `_hear` with the same empty hop
    list and recurses without end, modelled as a throw. Unknown types are
    ignored. The connection table itself never changes.
  */
  function Hear(p: Peer, msg: Message, from: Option<Handle>, now: int): (r: Step)
    requires Admitted(p.table, p.conns)
    requires from.Some? ==> from.value in p.conns
    ensures r.peer.table == p.table && r.peer.id == p.id && r.peer.running == p.running
    ensures r.peer.timeout == p.timeout && r.peer.interval == p.interval && r.peer.conns.Keys == p.conns.Keys
    ensures forall h :: h in p.conns ==> r.peer.conns[h].slot == p.conns[h].slot
    ensures |msg.h| > 0 ==> r == Relay(p, msg, from)
    ensures |msg.h| == 0 && msg.t.Ping? ==> r == HearPing(p, msg, from)
    ensures |msg.h| == 0 && msg.t.Pong? ==> r == HearPong(p, msg, from, now)
    ensures |msg.h| == 0 && msg.t.Preq? ==> r == HearPreq(p, msg, from)
    ensures |msg.h| == 0 && msg.t.Pres? ==> r == HearPres(p, msg, now)
    ensures |msg.h| == 0 && msg.t.Data? ==> r == Step(p, [], true)
    ensures |msg.h| == 0 && msg.t.Other? ==> r == Step(p, [], false)
  {
    if |msg.h| > 0 then Relay(p, msg, from)
    else match msg.t
      case Ping => HearPing(p, msg, from)
      case Pong => HearPong(p, msg, from, now)
      case Preq => HearPreq(p, msg, from)
      case Pres => HearPres(p, msg, now)
      case Data => Step(p, [], true)
      case Other(_) => Step(p, [], false)
  }

  /** The `ping` a tick sends: current time, no hops. */
  function PingMessage(me: Id, now: int): Message
  {
    Message(Ping, me, None, Stamp(now), [], [])
  }

  /**
    The interval tick: one `ping` carrying the current time to every live
    connection, in table order. A stopped peer has no timer and never ticks.
  */
  function Tick(p: Peer, now: int): (r: Step)
    ensures r.peer == p && !r.fault
    ensures !p.running ==> r.effects == []
    ensures p.running ==> |r.effects| == |LiveHandles(p.table)|
    ensures p.running ==> forall k :: 0 <= k < |r.effects| ==>
              r.effects[k] == Transmit(LiveHandles(p.table)[k], PingMessage(p.id, now))
  {
    if !p.running then Step(p, [], false)
    else
      var live := LiveHandles(p.table);
      Step(p, seq(|live|, k requires 0 <= k < |live| => Transmit(live[k], PingMessage(p.id, now))), false)
  }

  /** Whether every entry of the table holds a connection. */
  predicate NoNulls(table: seq<Option<Handle>>)
  {
    forall i :: 0 <= i < |table| ==> table[i].Some?
  }

  /**
    `_findPath(target)` with path-finder id `fid`: installs a fresh record
    whose timer fires at now + timeout, then hears, as if from this peer
    itself, a `pres` listing every connection. The kick-start maps over
    every entry, so the table must have no empty entries.
  */
  function FindPath(p: Peer, fid: Id, target: Id, now: int): (r: Step)
    requires NoNulls(p.table) && Admitted(p.table, p.conns)
    ensures r.peer.table == p.table && r.peer.conns == p.conns && r.peer.id == p.id && r.peer.running == p.running
    ensures r.peer.timeout == p.timeout && r.peer.interval == p.interval
    ensures fid in r.peer.finders && r.peer.finders[fid].target == target
    ensures forall g :: g in p.finders && g != fid ==> g in r.peer.finders && r.peer.finders[g] == p.finders[g]
    ensures fid == "" ==>
              r == Step(p.(finders := p.finders[fid := Finder(target, map[], false, Some(now + p.timeout))]), [], false)
    ensures fid != "" ==>
              var s := Recv(p.id, p.timeout, p.table, fid, Finder(target, map[], false, Some(now + p.timeout)), KickStart(p, fid), now);
              r == Step(p.(finders := p.finders[fid := s.finder]), s.effects, s.fault)
  {
    var blank := Finder(target, map[], false, Some(now + p.timeout));
    var p1 := p.(finders := p.finders[fid := blank]);
    KickStartHeard(p1, KickStart(p, fid), now);
    OverwriteTwice(p.finders, fid, blank, Recv(p.id, p.timeout, p.table, fid, blank, KickStart(p, fid), now).finder);
    Hear(p1, KickStart(p, fid), None, now)
  }

  lemma OverwriteTwice<K, V>(m: map<K, V>, k: K, v1: V, v2: V)
    ensures m[k := v1][k := v2] == m[k := v2]
  {
  }

  /** `_hear` of a kick-start: a hop-less `pres` from no connection goes to `recv`. */
  lemma KickStartHeard(p: Peer, msg: Message, now: int)
    requires Admitted(p.table, p.conns) && |msg.h| == 0 && msg.t.Pres? && msg.fid.Some? && msg.fid.value in p.finders
    ensures var fid := msg.fid.value;
            var r := Hear(p, msg, None, now);
            && (fid == "" ==> r == Step(p, [], false))
            && (fid != "" ==>
                  var s := Recv(p.id, p.timeout, p.table, fid, p.finders[fid], msg, now);
                  r == Step(p.(finders := p.finders[fid := s.finder]), s.effects, s.fault))
  {
  }

  /** The `pres` that starts a search: from this peer, listing every connection. */
  function KickStart(p: Peer, fid: Id): Message
    requires Admitted(p.table, p.conns)
  {
    Message(Pres, p.id, Some(fid), Peers(Infos(p.table, p.conns)), [], [])
  }

  /**
    A path finder's timer firing at time `now`: a search that has not
    settled is deleted and settles with `false`; a settled or missing
    search, or a timer not yet due or cleared, changes nothing.
  */
  function FinderTimer(p: Peer, fid: Id, now: int): (r: Step)
    ensures !r.fault
    ensures r.peer.table == p.table && r.peer.conns == p.conns && r.peer.id == p.id && r.peer.running == p.running
    ensures r.peer.timeout == p.timeout && r.peer.interval == p.interval
    ensures fid !in p.finders || p.finders[fid].resolved ==> r == Step(p, [], false)
    ensures r.effects != [] ==>
              && fid in p.finders && !p.finders[fid].resolved
              && r.effects == [Resolve(fid, None)]
              && r.peer.finders == p.finders - {fid}
    ensures r.effects == [] ==> r.peer == p
    ensures fid in p.finders && !p.finders[fid].resolved && p.finders[fid].deadline.Some? && p.finders[fid].deadline.value <= now ==>
              r.effects != []
    ensures fid in p.finders && (p.finders[fid].deadline.None? || now < p.finders[fid].deadline.value) ==>
              r == Step(p, [], false)
  {
    if fid !in p.finders then Step(p, [], false)
    else
      var f := p.finders[fid];
      if f.resolved || f.deadline.None? || now < f.deadline.value then Step(p, [], false)
      else Step(p.(finders := p.finders - {fid}), [Resolve(fid, None)], false)
  }

  /**
    `shutdown`: the first call stops the timer and destroys every live
    connection in table order; once stopped, a call does nothing.
  */
  function Shutdown(p: Peer): (r: Step)
    ensures !r.fault && !r.peer.running
    ensures r.peer == p.(running := false)
    ensures !p.running ==> r.effects == []
    ensures p.running ==> |r.effects| == |LiveHandles(p.table)|
    ensures p.running ==> forall k :: 0 <= k < |r.effects| ==> r.effects[k] == Destroy(LiveHandles(p.table)[k])
  {
    if !p.running then Step(p, [], false)
    else
      var live := LiveHandles(p.table);
      Step(p.(running := false), seq(|live|, k requires 0 <= k < |live| => Destroy(live[k])), false)
  }

  /** The events a peer reacts to. */
  datatype Event =
    | Admit(conn: Handle)
    | Closed(conn: Handle)
    | Heard(msg: Message, from: Option<Handle>, at: int)
    | Ticked(at: int)
    | Search(fid: Id, target: Id, at: int)
    | TimerFired(fid: Id, at: int)
    | Stop

  /** Whether the event can occur in this state: data only arrives on admitted connections, and a search needs a table without empty entries. */
  ghost predicate Enabled(p: Peer, e: Event)
  {
    && Admitted(p.table, p.conns)
    && (e.Heard? && e.from.Some? ==> e.from.value in p.conns)
    && (e.Search? ==> NoNulls(p.table))
  }

  /** One step of the peer on one event. */
  function Next(p: Peer, e: Event): (r: Step)
    requires Enabled(p, e)
    ensures r.peer.id == p.id
  {
    match e
    case Admit(h) => Step(AddConnection(p, h), [], false)
    case Closed(h) => Step(Close(p, h), [], false)
    case Heard(msg, from, now) => Hear(p, msg, from, now)
    case Ticked(now) => Tick(p, now)
    case Search(fid, target, now) => FindPath(p, fid, target, now)
    case TimerFired(fid, now) => FinderTimer(p, fid, now)
    case Stop => Shutdown(p)
  }
}

=== FILE: peer_properties.dfy ===
/**
  Properties of the peer engine that relate several steps or hold in
  every reachable state: the table invariant, relaying and the one-relay
  return path, round-trip measurement, the order of `pres` lists, at most
  one settlement per search, neighbour discovery and shutdown.
*/
module PeerProperties {
  import opened Wrappers
  import opened PeerState
  import opened PathFinder
  import opened PeerEngine

  /** A `recv` step keeps a path-finder record consistent. */
  lemma RecvKeepsFinderOk(me: Id, timeout: int, table: seq<Option<Handle>>, fid: Id,
                          f: Finder, msg: Message, now: int)
    requires FinderOk(f)
    ensures FinderOk(Recv(me, timeout, table, fid, f, msg, now).finder)
  {
    var s := Recv(me, timeout, table, fid, f, msg, now);
    RecvAdded(me, timeout, table, fid, f, msg, now);
    forall key | key in s.finder.known
      ensures |s.finder.known[key].path| >= 1
    {
      if key !in f.known {
        var info := FirstWith(msg.p.list, key);
        assert s.finder.known[key] == Extend(SenderEntry(me, f, msg), info);
      }
    }
  }

  /** Hearing a message keeps the invariant. */
  lemma HearKeepsValid(p: Peer, msg: Message, from: Option<Handle>, now: int)
    requires Valid(p)
    requires from.Some? ==> from.value in p.conns
    ensures Admitted(p.table, p.conns)
    ensures Valid(Hear(p, msg, from, now).peer)
  {
    SlotsMatchAdmitted(p.table, p.conns);
    var r := Hear(p, msg, from, now);
    if |msg.h| == 0 && msg.t.Pres? && !NoFid(msg.fid) && msg.fid.value in p.finders {
      var fid := msg.fid.value;
      RecvKeepsFinderOk(p.id, p.timeout, p.table, fid, p.finders[fid], msg, now);
      assert r.peer.finders == p.finders[fid := Recv(p.id, p.timeout, p.table, fid, p.finders[fid], msg, now).finder];
    } else {
      assert r.peer.finders == p.finders;
    }
  }

  /**
    Every event keeps the invariant: every live entry's slot equals its
    index, and every path-finder record is consistent. Admitting a
    connection that is already live is excluded.
  */
  lemma NextKeepsValid(p: Peer, e: Event)
    requires Valid(p)
    requires e.Heard? && e.from.Some? ==> e.from.value in p.conns
    requires e.Search? ==> NoNulls(p.table)
    requires e.Admit? ==> Some(e.conn) !in p.table
    ensures Enabled(p, e)
    ensures Valid(Next(p, e).peer)
  {
    SlotsMatchAdmitted(p.table, p.conns);
    match e
    case Admit(h) => AddConnectionKeepsValid(p, h);
    case Closed(h) =>
    case Heard(msg, from, now) => HearKeepsValid(p, msg, from, now);
    case Ticked(now) =>
    case Search(fid, target, now) => SearchKeepsValid(p, fid, target, now);
    case TimerFired(fid, now) =>
    case Stop =>
  }

  /** Starting a search keeps the invariant. */
  lemma SearchKeepsValid(p: Peer, fid: Id, target: Id, now: int)
    requires Valid(p) && NoNulls(p.table)
    ensures Admitted(p.table, p.conns)
    ensures Valid(FindPath(p, fid, target, now).peer)
  {
    SlotsMatchAdmitted(p.table, p.conns);
    var f := Finder(target, map[], false, Some(now + p.timeout));
    RecvKeepsFinderOk(p.id, p.timeout, p.table, fid, f, KickStart(p, fid), now);
  }

  /**
    Slot reuse: closing the connection at index k of a full table and then
    admitting a new connection puts the new one at index k with slot k,
    and the table keeps its length.
  */
  lemma SlotReuse(p: Peer, k: nat, g: Handle)
    requires Valid(p) && NoNulls(p.table)
    requires k < |p.table|
    requires Some(g) !in p.table
    ensures var r := AddConnection(Close(p, p.table[k].value), g);
            && |r.table| == |p.table|
            && r.table[k] == Some(g)
            && r.conns[g].slot == k
            && forall j :: 0 <= j < |p.table| && j != k ==> r.table[j] == p.table[j]
  {
    var q := Close(p, p.table[k].value);
    assert forall j :: 0 <= j < |p.table| && j != k ==> p.table[j] != p.table[k];
    assert q.table == p.table[k := None];
    assert FirstFree(q.table) == k;
  }

  /**
    Under the invariant, a relayed message goes to the connection at the
    index named by its first hop, and is dropped exactly when that entry
    is empty or out of range.
  */
  lemma RelayToHopIndex(p: Peer, msg: Message, from: Option<Handle>)
    requires Valid(p) && |msg.h| > 0
    requires from.Some? ==> from.value in p.conns
    ensures Admitted(p.table, p.conns)
    ensures var r := Relay(p, msg, from);
            && (r.effects != [] <==> 0 <= msg.h[0] < |p.table| && p.table[msg.h[0]].Some?)
            && (r.effects != [] ==> r.effects[0].to == p.table[msg.h[0]].value)
  {
    SlotsMatchAdmitted(p.table, p.conns);
    var r := Relay(p, msg, from);
    if r.effects != [] {
      var to := r.effects[0].to;
      var i :| 0 <= i < |p.table| && p.table[i] == Some(to);
      assert i == msg.h[0];
    }
  }

  /**
    One relay and back: peer b relays a one-hop message that arrived on
    connection `back`; the receiver's answer, addressed with `h` equal to
    the forwarded `r`, is relayed by b onto `back` again.
  */
  lemma OneRelayReturnPath(b: Peer, msg: Message, back: Handle, reply: Message, replyFrom: Handle)
    requires Valid(b) && Some(back) in b.table && replyFrom in b.conns
    requires |msg.h| == 1 && msg.r == []
    requires Relay(b, msg, Some(back)).effects != []
    requires reply.h == Relay(b, msg, Some(back)).effects[0].msg.r
    ensures Admitted(b.table, b.conns) && back in b.conns
    ensures Relay(b, msg, Some(back)).effects[0].msg.h == []
    ensures Relay(b, reply, Some(replyFrom)).effects ==
            [Transmit(back, reply.(h := [], r := reply.r + [b.conns[replyFrom].slot]))]
  {
    SlotsMatchAdmitted(b.table, b.conns);
    var i :| 0 <= i < |b.table| && b.table[i] == Some(back);
    assert reply.h == [b.conns[back].slot];
    RelayToHopIndex(b, reply, Some(replyFrom));
  }

  /**
    Round-trip measurement over one link: a tick of peer a sends a `ping`
    stamped t0 on connection `ab`; peer b, hearing it on `ba`, records a's
    id and answers with a `pong`; a, hearing that pong at t1, records
    rtt = t1 - t0 and b's id on `ab`.
  */
  lemma PingPongMeasuresRtt(a: Peer, b: Peer, ab: Handle, ba: Handle, t0: int, tb: int, t1: int)
    requires Valid(a) && Valid(b) && a.running
    requires Some(ab) in a.table && ba in b.conns
    ensures Admitted(a.table, a.conns) && ab in a.conns
    ensures var ping := PingMessage(a.id, t0);
            && Transmit(ab, ping) in Tick(a, t0).effects
            && var atB := Hear(b, ping, Some(ba), tb);
               && atB.peer.conns[ba].id == Some(a.id)
               && atB.effects == [Transmit(ba, PongFor(b.id, ping))]
               && var atA := Hear(a, PongFor(b.id, ping), Some(ab), t1);
                  && atA.peer.conns[ab].rtt == Some(t1 - t0)
                  && atA.peer.conns[ab].id == Some(b.id)
                  && atA.effects == [] && !atA.fault
  {
    SlotsMatchAdmitted(a.table, a.conns);
    var live := LiveHandles(a.table);
    var k :| 0 <= k < |live| && live[k] == ab;
    assert Tick(a, t0).effects[k] == Transmit(ab, PingMessage(a.id, t0));
  }

  /**
    Under the invariant the live connections, in table order, have
    strictly increasing slots, each naming the index that holds them.
  */
  lemma {:induction false} LiveHandlesBySlot(table: seq<Option<Handle>>, conns: map<Handle, ConnInfo>)
    requires SlotsMatch(table, conns)
    ensures forall k :: 0 <= k < |LiveHandles(table)| ==>
              var h := LiveHandles(table)[k];
              h in conns && 0 <= conns[h].slot < |table| && table[conns[h].slot] == Some(h)
    ensures forall a, b :: 0 <= a < b < |LiveHandles(table)| ==>
              conns[LiveHandles(table)[a]].slot < conns[LiveHandles(table)[b]].slot
  {
    if |table| > 0 {
      var init := table[..|table| - 1];
      assert SlotsMatch(init, conns) by {
        assert forall i :: 0 <= i < |init| ==> init[i] == table[i];
      }
      LiveHandlesBySlot(init, conns);
      assert forall i :: 0 <= i < |init| ==> init[i] == table[i];
    }
  }

  /**
    A `pres` lists exactly the live connections, in table order: its
    slots strictly increase, entry k is `{id, rtt, slot}` of the
    connection at index slot, and every live index appears.
  */
  lemma PresListsLiveConnections(p: Peer, preq: Message)
    requires SlotsMatch(p.table, p.conns)
    ensures Admitted(p.table, p.conns)
    ensures var list := PresFor(p, preq).p.list;
            && (forall k :: 0 <= k < |list| ==>
                  0 <= list[k].slot < |p.table| && p.table[list[k].slot].Some?
                  && list[k] == InfoOf(p.conns[p.table[list[k].slot].value]))
            && (forall a, b :: 0 <= a < b < |list| ==> list[a].slot < list[b].slot)
            && (forall i :: 0 <= i < |p.table| && p.table[i].Some? ==> exists k :: 0 <= k < |list| && list[k].slot == i)
  {
    InfosBySlot(p.table, p.conns);
  }

  /** The `{id, rtt, slot}` list of the live connections, indexed by slot. */
  lemma InfosBySlot(table: seq<Option<Handle>>, conns: map<Handle, ConnInfo>)
    requires SlotsMatch(table, conns)
    ensures Admitted(table, conns)
    ensures var list := Infos(table, conns);
            && (forall k :: 0 <= k < |list| ==>
                  0 <= list[k].slot < |table| && table[list[k].slot].Some?
                  && list[k] == InfoOf(conns[table[list[k].slot].value]))
            && (forall a, b :: 0 <= a < b < |list| ==> list[a].slot < list[b].slot)
            && (forall i :: 0 <= i < |table| && table[i].Some? ==> exists k :: 0 <= k < |list| && list[k].slot == i)
  {
    SlotsMatchAdmitted(table, conns);
    LiveHandlesBySlot(table, conns);
    var live := LiveHandles(table);
    var list := Infos(table, conns);
    forall i | 0 <= i < |table| && table[i].Some?
      ensures exists k :: 0 <= k < |list| && list[k].slot == i
    {
      var h := table[i].value;
      assert h in live;
      var k :| 0 <= k < |live| && live[k] == h;
      assert list[k].slot == i;
    }
  }

  /** Under the invariant a tick pings every live connection exactly once. */
  lemma TickPingsEveryLive(p: Peer, now: int)
    requires SlotsMatch(p.table, p.conns) && p.running
    ensures forall i :: 0 <= i < |p.table| && p.table[i].Some? ==>
              Transmit(p.table[i].value, PingMessage(p.id, now)) in Tick(p, now).effects
    ensures forall a, b :: 0 <= a < b < |Tick(p, now).effects| ==> Tick(p, now).effects[a] != Tick(p, now).effects[b]
    ensures forall e :: e in Tick(p, now).effects ==> e.Transmit? && Some(e.to) in p.table
  {
    var live := LiveHandles(p.table);
    var effects := Tick(p, now).effects;
    LiveHandlesBySlot(p.table, p.conns);
    forall i | 0 <= i < |p.table| && p.table[i].Some?
      ensures Transmit(p.table[i].value, PingMessage(p.id, now)) in effects
    {
      var k :| 0 <= k < |live| && live[k] == p.table[i].value;
      assert effects[k] == Transmit(p.table[i].value, PingMessage(p.id, now));
    }
    forall a, b | 0 <= a < b < |effects|
      ensures effects[a] != effects[b]
    {
      assert p.conns[live[a]].slot < p.conns[live[b]].slot;
    }
  }

  /**
    `shutdown` is idempotent: the second call changes nothing and does
    nothing. The first destroys every live connection exactly once.
  */
  lemma ShutdownIdempotent(p: Peer)
    requires SlotsMatch(p.table, p.conns)
    ensures var once := Shutdown(p);
            Shutdown(once.peer) == Step(once.peer, [], false)
    ensures p.running ==> forall i :: 0 <= i < |p.table| && p.table[i].Some? ==>
              Destroy(p.table[i].value) in Shutdown(p).effects
    ensures forall a, b :: 0 <= a < b < |Shutdown(p).effects| ==> Shutdown(p).effects[a] != Shutdown(p).effects[b]
  {
    var live := LiveHandles(p.table);
    var effects := Shutdown(p).effects;
    LiveHandlesBySlot(p.table, p.conns);
    if p.running {
      forall i | 0 <= i < |p.table| && p.table[i].Some?
        ensures Destroy(p.table[i].value) in effects
      {
        var k :| 0 <= k < |live| && live[k] == p.table[i].value;
        assert effects[k] == Destroy(p.table[i].value);
      }
      forall a, b | 0 <= a < b < |effects|
        ensures effects[a] != effects[b]
      {
        assert p.conns[live[a]].slot < p.conns[live[b]].slot;
      }
    }
  }

  /** Whether an effect settles search fid. */
  predicate Settles(e: Effect, fid: Id)
  {
    e.Resolve? && e.fid == fid
  }

  /** The settlement facts of one `recv` step on search g, seen from search fid. */
  lemma RecvSettlement(p: Peer, msg: Message, now: int, g: Id, fid: Id)
    requires Valid(p) && g in p.finders
    ensures var f := p.finders[g];
            var s := Recv(p.id, p.timeout, p.table, g, f, msg, now);
            && FinderOk(s.finder)
            && (forall k :: 0 <= k < |s.effects| && Settles(s.effects[k], fid) ==>
                  && k == |s.effects| - 1 && g == fid && !f.resolved && s.finder.resolved
                  && s.effects[k].path.Some? && |s.effects[k].path.value| >= 1)
  {
    var f := p.finders[g];
    var s := Recv(p.id, p.timeout, p.table, g, f, msg, now);
    RecvKeepsFinderOk(p.id, p.timeout, p.table, g, f, msg, now);
    RecvSends(p.id, p.timeout, p.table, g, f, msg, now);
    forall k | 0 <= k < |s.effects| && Settles(s.effects[k], fid)
      ensures k == |s.effects| - 1 && g == fid && !f.resolved && s.finder.resolved
      ensures s.effects[k].path.Some? && |s.effects[k].path.value| >= 1
    {
      assert s.effects[k] == Resolve(g, Some(s.finder.known[Some(f.target)].path));
    }
  }

  /**
    What hearing a message can do to search fid: only a pending search is
    settled, only by the last effect, with a non-empty path, and it is
    then settled; a settled search stays exactly as it was.
  */
  lemma HearSettlement(p: Peer, msg: Message, from: Option<Handle>, now: int, fid: Id)
    requires Valid(p)
    requires from.Some? ==> from.value in p.conns
    ensures Admitted(p.table, p.conns)
    ensures var r := Hear(p, msg, from, now);
            && (fid in p.finders && p.finders[fid].resolved ==>
                  fid in r.peer.finders && r.peer.finders[fid] == p.finders[fid])
            && (forall k :: 0 <= k < |r.effects| && Settles(r.effects[k], fid) ==>
                  && k == |r.effects| - 1
                  && fid in p.finders && !p.finders[fid].resolved
                  && fid in r.peer.finders && r.peer.finders[fid].resolved
                  && r.effects[k].path.Some? && |r.effects[k].path.value| >= 1)
  {
    SlotsMatchAdmitted(p.table, p.conns);
    var r := Hear(p, msg, from, now);
    if |msg.h| == 0 && msg.t.Pres? && !NoFid(msg.fid) && msg.fid.value in p.finders {
      var g := msg.fid.value;
      var s := Recv(p.id, p.timeout, p.table, g, p.finders[g], msg, now);
      RecvSettlement(p, msg, now, g, fid);
      assert r == Step(p.(finders := p.finders[g := s.finder]), s.effects, s.fault);
    } else {
      assert r.effects == [] || (|r.effects| == 1 && r.effects[0].Transmit?);
    }
  }

  /**
    A search settles at most once: on any event other than a new search
    under the same id, a settled search stays as it is and is not settled
    again, a missing search is not settled, and a pending one is settled
    by at most one effect, after which it is settled or deleted.
  */
  lemma SettlesAtMostOnce(p: Peer, e: Event, fid: Id)
    requires Valid(p)
    requires e.Heard? && e.from.Some? ==> e.from.value in p.conns
    requires e.Search? ==> NoNulls(p.table) && e.fid != fid
    ensures Enabled(p, e)
    ensures var r := Next(p, e);
            && (fid in p.finders && p.finders[fid].resolved ==>
                  && fid in r.peer.finders && r.peer.finders[fid] == p.finders[fid]
                  && forall x :: x in r.effects ==> !Settles(x, fid))
            && (fid !in p.finders ==> forall x :: x in r.effects ==> !Settles(x, fid))
            && (forall k :: 0 <= k < |r.effects| && Settles(r.effects[k], fid) ==>
                  && k == |r.effects| - 1
                  && fid in p.finders && !p.finders[fid].resolved
                  && (fid !in r.peer.finders || r.peer.finders[fid].resolved))
  {
    SlotsMatchAdmitted(p.table, p.conns);
    var r := Next(p, e);
    SettlesIndexed(p, e, fid);
    forall x | x in r.effects && Settles(x, fid)
      ensures fid in p.finders && !p.finders[fid].resolved
    {
      var k :| 0 <= k < |r.effects| && r.effects[k] == x;
    }
  }

  /** How one step may treat search fid: see `SettlesAtMostOnce`. */
  ghost predicate SettleFacts(p: Peer, r: Step, fid: Id)
  {
    && (fid in p.finders && p.finders[fid].resolved ==>
          fid in r.peer.finders && r.peer.finders[fid] == p.finders[fid])
    && (forall k :: 0 <= k < |r.effects| && Settles(r.effects[k], fid) ==>
          && k == |r.effects| - 1
          && fid in p.finders && !p.finders[fid].resolved
          && (fid !in r.peer.finders || r.peer.finders[fid].resolved))
  }

  lemma HeardSettleFacts(p: Peer, msg: Message, from: Option<Handle>, now: int, fid: Id)
    requires Valid(p)
    requires from.Some? ==> from.value in p.conns
    ensures Admitted(p.table, p.conns)
    ensures SettleFacts(p, Hear(p, msg, from, now), fid)
  {
    HearSettlement(p, msg, from, now, fid);
  }

  lemma SearchSettleFacts(p: Peer, g: Id, target: Id, now: int, fid: Id)
    requires Valid(p) && NoNulls(p.table) && g != fid
    ensures Admitted(p.table, p.conns)
    ensures SettleFacts(p, FindPath(p, g, target, now), fid)
  {
    SlotsMatchAdmitted(p.table, p.conns);
    var f := Finder(target, map[], false, Some(now + p.timeout));
    var r := FindPath(p, g, target, now);
    if g != "" {
      var s := Recv(p.id, p.timeout, p.table, g, f, KickStart(p, g), now);
      RecvSettlesItsOwn(p.id, p.timeout, p.table, g, f, KickStart(p, g), now, fid);
      assert r.effects == s.effects;
    }
    assert forall k :: 0 <= k < |r.effects| ==> !Settles(r.effects[k], fid);
    assert fid in p.finders ==> fid in r.peer.finders && r.peer.finders[fid] == p.finders[fid];
  }

  /** A `recv` step of search g settles no other search. */
  lemma RecvSettlesItsOwn(me: Id, timeout: int, table: seq<Option<Handle>>, g: Id,
                          f: Finder, msg: Message, now: int, fid: Id)
    requires g != fid
    ensures var s := Recv(me, timeout, table, g, f, msg, now);
            forall k :: 0 <= k < |s.effects| ==> !Settles(s.effects[k], fid)
  {
    RecvSends(me, timeout, table, g, f, msg, now);
  }

  lemma SettlesIndexed(p: Peer, e: Event, fid: Id)
    requires Valid(p)
    requires e.Heard? && e.from.Some? ==> e.from.value in p.conns
    requires e.Search? ==> NoNulls(p.table) && e.fid != fid
    ensures Enabled(p, e)
    ensures SettleFacts(p, Next(p, e), fid)
  {
    SlotsMatchAdmitted(p.table, p.conns);
    match e
    case Admit(h) =>
    case Closed(h) =>
    case Heard(msg, from, now) =>
      HeardSettleFacts(p, msg, from, now, fid);
    case Ticked(now) =>
    case Search(g, target, now) =>
      SearchSettleFacts(p, g, target, now, fid);
    case TimerFired(g, now) =>
    case Stop =>
  }

  /**
    Searching for the id of a direct neighbour settles at once, on the
    one-hop path through the lowest index whose connection carries that
    id: the kick-start lists every connection, and the first entry with
    the target id wins.
  */
  lemma FindPathToNeighbour(p: Peer, fid: Id, target: Id, now: int, i: nat) returns (n: nat)
    requires Valid(p) && NoNulls(p.table) && fid != ""
    requires i < |p.table| && p.conns[p.table[i].value].id == Some(target)
    ensures Admitted(p.table, p.conns)
    ensures n <= i && p.conns[p.table[n].value].id == Some(target)
    ensures forall m :: 0 <= m < n ==> p.conns[p.table[m].value].id != Some(target)
    ensures var r := FindPath(p, fid, target, now);
            && !r.fault && fid in r.peer.finders && r.peer.finders[fid].resolved
            && |r.effects| >= 1 && r.effects[|r.effects| - 1] == Resolve(fid, Some([n]))
  {
    n := NeighbourSlot(p.table, p.conns, target, i);
    SearchSettlesOnList(p, fid, target, now);
  }

  /**
    Under the invariant, in a table without empty entries, the kick-start
    list carries a neighbour's id, every slot it reports is live, and its
    first entry with that id names the lowest index carrying it.
  */
  lemma NeighbourSlot(table: seq<Option<Handle>>, conns: map<Handle, ConnInfo>, target: Id, i: nat) returns (n: nat)
    requires SlotsMatch(table, conns) && NoNulls(table)
    requires i < |table| && conns[table[i].value].id == Some(target)
    ensures Admitted(table, conns)
    ensures forall k :: 0 <= k < |Infos(table, conns)| ==>
              0 <= Infos(table, conns)[k].slot < |table| && table[Infos(table, conns)[k].slot].Some?
    ensures Some(target) in IdsOf(Infos(table, conns)) && n == FirstWith(Infos(table, conns), Some(target)).slot
    ensures n <= i && conns[table[n].value].id == Some(target)
    ensures forall m :: 0 <= m < n ==> conns[table[m].value].id != Some(target)
  {
    InfosRoutable(table, conns);
    FirstNeighbour(table, conns, target, i);
    n := FirstWith(Infos(table, conns), Some(target)).slot;
  }

  /**
    A search whose kick-start list reports only live slots and carries the
    target settles at once on the one-hop path of the first entry with it.
  */
  lemma SearchSettlesOnList(p: Peer, fid: Id, target: Id, now: int)
    requires Admitted(p.table, p.conns) && NoNulls(p.table) && fid != ""
    requires forall k :: 0 <= k < |Infos(p.table, p.conns)| ==>
               0 <= Infos(p.table, p.conns)[k].slot < |p.table| && p.table[Infos(p.table, p.conns)[k].slot].Some?
    requires Some(target) in IdsOf(Infos(p.table, p.conns))
    ensures var r := FindPath(p, fid, target, now);
            && !r.fault && fid in r.peer.finders && r.peer.finders[fid].resolved && |r.effects| >= 1
            && r.effects[|r.effects| - 1] == Resolve(fid, Some([FirstWith(Infos(p.table, p.conns), Some(target)).slot]))
  {
    var list := Infos(p.table, p.conns);
    SelfListSettles(p.id, p.timeout, p.table, fid, target, list, KickStart(p, fid), now);
    SearchSettlesAs(p, fid, target, now, [FirstWith(list, Some(target)).slot]);
  }

  /** A search whose kick-start settles with a path settles the `_findPath` step with it. */
  lemma SearchSettlesAs(p: Peer, fid: Id, target: Id, now: int, path: seq<int>)
    requires Admitted(p.table, p.conns) && NoNulls(p.table) && fid != ""
    requires var s := Recv(p.id, p.timeout, p.table, fid, Finder(target, map[], false, Some(now + p.timeout)),
                           KickStart(p, fid), now);
             !s.fault && s.finder.resolved && |s.effects| >= 1 && s.effects[|s.effects| - 1] == Resolve(fid, Some(path))
    ensures var r := FindPath(p, fid, target, now);
            && !r.fault && fid in r.peer.finders && r.peer.finders[fid].resolved
            && |r.effects| >= 1 && r.effects[|r.effects| - 1] == Resolve(fid, Some(path))
  {
    var r := FindPath(p, fid, target, now);
    var s := Recv(p.id, p.timeout, p.table, fid, Finder(target, map[], false, Some(now + p.timeout)), KickStart(p, fid), now);
    assert r == Step(p.(finders := p.finders[fid := s.finder]), s.effects, s.fault);
  }

  /** Under the invariant every slot a `pres` list reports names a live entry. */
  lemma InfosRoutable(table: seq<Option<Handle>>, conns: map<Handle, ConnInfo>)
    requires SlotsMatch(table, conns)
    ensures Admitted(table, conns)
    ensures forall k :: 0 <= k < |Infos(table, conns)| ==>
              0 <= Infos(table, conns)[k].slot < |table| && table[Infos(table, conns)[k].slot].Some?
  {
    SlotsMatchAdmitted(table, conns);
    LiveHandlesBySlot(table, conns);
  }

  /**
    A search that hears, from this peer itself, a list whose every slot
    names a live entry and which carries the target id settles on the
    one-hop path of the first entry with that id.
  */
  lemma SelfListSettles(me: Id, timeout: int, table: seq<Option<Handle>>, fid: Id, target: Id,
                        list: seq<PeerInfo>, msg: Message, now: int)
    requires msg.i == me && msg.p == Peers(list)
    requires forall k :: 0 <= k < |list| ==> 0 <= list[k].slot < |table| && table[list[k].slot].Some?
    requires Some(target) in IdsOf(list)
    ensures var s := Recv(me, timeout, table, fid, Finder(target, map[], false, Some(now + timeout)), msg, now);
            && !s.fault && s.finder.resolved && |s.effects| >= 1
            && s.effects[|s.effects| - 1] == Resolve(fid, Some([FirstWith(list, Some(target)).slot]))
  {
    var f := Finder(target, map[], false, Some(now + timeout));
    var f0 := f.(deadline := Some(now + timeout));
    RecvIsScan(me, timeout, table, fid, f, msg, now);
    assert SenderEntry(me, f, msg) == None;
    ScanFindsListed(me, fid, table, f0, list);
  }


  /**
    The first kick-start entry carrying a neighbour's id is the lowest
    index whose connection carries it.
  */
  lemma FirstNeighbour(table: seq<Option<Handle>>, conns: map<Handle, ConnInfo>, target: Id, i: nat)
    requires SlotsMatch(table, conns) && NoNulls(table)
    requires i < |table| && conns[table[i].value].id == Some(target)
    ensures Admitted(table, conns)
    ensures Some(target) in IdsOf(Infos(table, conns))
    ensures var n := FirstWith(Infos(table, conns), Some(target)).slot;
            && 0 <= n <= i
            && conns[table[n].value].id == Some(target)
            && forall m :: 0 <= m < n ==> conns[table[m].value].id != Some(target)
  {
    InfosBySlot(table, conns);
    FirstInList(table, conns, Infos(table, conns), Some(target), i);
  }

  /**
    In a list shaped like the kick-start's (one entry per live index, in
    increasing slot order, over a table with no empty entries), the first
    entry carrying an id names the lowest index whose connection has it.
  */
  lemma FirstInList(table: seq<Option<Handle>>, conns: map<Handle, ConnInfo>, list: seq<PeerInfo>,
                    key: Option<Id>, i: nat)
    requires SlotsMatch(table, conns) && NoNulls(table)
    requires forall k :: 0 <= k < |list| ==>
               0 <= list[k].slot < |table| && list[k] == InfoOf(conns[table[list[k].slot].value])
    requires forall a, b :: 0 <= a < b < |list| ==> list[a].slot < list[b].slot
    requires forall i :: 0 <= i < |table| && table[i].Some? ==> exists k :: 0 <= k < |list| && list[k].slot == i
    requires i < |table| && conns[table[i].value].id == key
    ensures key in IdsOf(list)
    ensures var n := FirstWith(list, key).slot;
            && 0 <= n <= i
            && conns[table[n].value].id == key
            && forall m :: 0 <= m < n ==> conns[table[m].value].id != key
  {
    var ki :| 0 <= ki < |list| && list[ki].slot == i;
    assert list[ki].id == key;
    var j := FirstWithIsFirst(list, key);
    if ki < j {
      assert false;
    }
    NoKeyBefore(table, conns, list, j, key);
  }

  /**
    In a list shaped like the kick-start's, the indices below the slot of
    entry j hold connections whose ids appear among the first j entries.
  */
  lemma NoKeyBefore(table: seq<Option<Handle>>, conns: map<Handle, ConnInfo>, list: seq<PeerInfo>,
                    j: nat, key: Option<Id>)
    requires SlotsMatch(table, conns) && NoNulls(table)
    requires forall k :: 0 <= k < |list| ==>
               0 <= list[k].slot < |table| && list[k] == InfoOf(conns[table[list[k].slot].value])
    requires forall a, b :: 0 <= a < b < |list| ==> list[a].slot < list[b].slot
    requires forall i :: 0 <= i < |table| && table[i].Some? ==> exists k :: 0 <= k < |list| && list[k].slot == i
    requires j < |list| && forall k :: 0 <= k < j ==> list[k].id != key
    ensures forall m :: 0 <= m < list[j].slot ==> conns[table[m].value].id != key
  {
    forall m | 0 <= m < list[j].slot
      ensures conns[table[m].value].id != key
    {
      assert table[m].Some?;
      var km :| 0 <= km < |list| && list[km].slot == m;
      if j <= km {
        assert false;
      }
    }
  }
}

=== FILE: peer_state.dfy ===
/**
  State of a `Peer`: its configuration, the connection table, the
  connection objects it has admitted, and the path-finder records of the
  searches in progress. Also the messages peers exchange and the effects a
  step has on the outside world.
*/
module PeerState {
  import opened Wrappers

  /** A peer identity (a random 32-character hex string by default). */
  type Id = string

  /** The identity of one transport object; two handles are the same connection iff equal. */
  type Handle = nat

  /** The fields the peer keeps on a connection object: its table index, the remote id, the measured round-trip time. */
  datatype ConnInfo = ConnInfo(slot: int, id: Option<Id>, rtt: Option<int>)

  /** One entry of a `pres` payload: `{id, rtt, slot}` of a connection. */
  datatype PeerInfo = PeerInfo(id: Option<Id>, rtt: Option<int>, slot: int)

  /** The message type `t`. */
  datatype Kind = Ping | Pong | Preq | Pres | Data | Other(name: string)

  /** The payload `p`: a timestamp, a peer list, or anything else (including absent). */
  datatype Payload = Stamp(ms: int) | Peers(list: seq<PeerInfo>) | Opaque

  /** A decoded message: type, transmitter id, path-finder id, payload, hop list, reverse list. */
  datatype Message = Message(t: Kind, i: Id, fid: Option<Id>, p: Payload, h: seq<int>, r: seq<int>)

  /** What a step does outside the peer: send a message on a transport, destroy a transport, settle a path search. */
  datatype Effect =
    | Transmit(to: Handle, msg: Message)
    | Destroy(target: Handle)
    | Resolve(fid: Id, path: Option<seq<int>>)

  /** A path-finder entry: accumulated round-trip time and the slot path leading to the peer. */
  datatype Known = Known(rtt: Option<int>, path: seq<int>)

  /**
    A path-finder record: the id searched for, the peers discovered so far,
    whether the search has settled, and when its timer fires (None once
    cleared).
  */
  datatype Finder = Finder(target: Id, known: map<Option<Id>, Known>, resolved: bool, deadline: Option<int>)

  datatype Peer = Peer(
    id: Id,
    interval: int,
    timeout: int,
    table: seq<Option<Handle>>,
    conns: map<Handle, ConnInfo>,
    finders: map<Id, Finder>,
    running: bool)

  /**
    The outcome of handling one event: the new state, the effects in the
    order they happen, and whether the handler threw before finishing.
  */
  datatype Step = Step(peer: Peer, effects: seq<Effect>, fault: bool)

  /** Every live table entry is an admitted connection object. */
  ghost predicate Admitted(table: seq<Option<Handle>>, conns: map<Handle, ConnInfo>)
  {
    forall h :: Some(h) in table ==> h in conns
  }

  /** Every live entry's `slot` equals its index in the table. */
  ghost predicate SlotsMatch(table: seq<Option<Handle>>, conns: map<Handle, ConnInfo>)
  {
    forall i :: 0 <= i < |table| && table[i].Some? ==>
      table[i].value in conns && conns[table[i].value].slot == i
  }

  /** A path-finder record is consistent. */
  ghost predicate FinderOk(f: Finder)
  {
    && (f.resolved ==> f.deadline.None?)
    && (!f.resolved ==> Some(f.target) !in f.known)
    && (forall key :: key in f.known ==> |f.known[key].path| >= 1)
  }

  ghost predicate FindersOk(finders: map<Id, Finder>)
  {
    forall fid :: fid in finders ==> FinderOk(finders[fid])
  }

  /** The invariant every reachable peer state keeps. */
  ghost predicate Valid(p: Peer)
  {
    SlotsMatch(p.table, p.conns) && FindersOk(p.finders)
  }

  /** The lowest index holding no connection, or the table length when every entry is live. */
  function FirstFree(table: seq<Option<Handle>>): (k: nat)
    ensures k <= |table|
    ensures k < |table| ==> table[k].None?
    ensures forall j :: 0 <= j < k ==> table[j].Some?
  {
    if |table| == 0 then 0
    else if table[0].None? then 0
    else 1 + FirstFree(table[1..])
  }

  /** `connections.indexOf(connection)`: the first index holding h, if any. */
  function IndexOf(table: seq<Option<Handle>>, h: Handle): (r: Option<nat>)
    ensures r.None? <==> Some(h) !in table
    ensures r.Some? ==> r.value < |table| && table[r.value] == Some(h)
    ensures r.Some? ==> forall j :: 0 <= j < r.value ==> table[j] != Some(h)
  {
    if |table| == 0 then None
    else if table[0] == Some(h) then Some(0)
    else match IndexOf(table[1..], h)
      case None => None
      case Some(k) => Some(k + 1)
  }

  /** `connections.filter(c => c)`: the live connections in table order. */
  function LiveHandles(table: seq<Option<Handle>>): (r: seq<Handle>)
    ensures |r| <= |table|
    ensures forall h :: h in r <==> Some(h) in table
  {
    if |table| == 0 then []
    else
      var init := LiveHandles(table[..|table| - 1]);
      assert table == table[..|table| - 1] + [table[|table| - 1]];
      match table[|table| - 1]
      case None => init
      case Some(h) => init + [h]
  }

  /** Whether idx lists, in strictly increasing order, the indices of the live entries that `live` holds. */
  ghost predicate InOrder(table: seq<Option<Handle>>, live: seq<Handle>, idx: seq<nat>)
  {
    && |idx| == |live|
    && (forall k :: 0 <= k < |idx| ==> idx[k] < |table| && table[idx[k]] == Some(live[k]))
    && (forall a, b :: 0 <= a < b < |idx| ==> idx[a] < idx[b])
    && (forall i :: 0 <= i < |table| && table[i].Some? ==> i in idx)
  }

  /**
    `filter(c => c)` keeps table order: the live connections are listed
    at strictly increasing indices, one entry per live index.
  */
  lemma {:induction false} LiveHandlesInOrder(table: seq<Option<Handle>>) returns (idx: seq<nat>)
    ensures InOrder(table, LiveHandles(table), idx)
  {
    if |table| == 0 {
      idx := [];
    } else {
      var init := table[..|table| - 1];
      var pre := LiveHandlesInOrder(init);
      assert table == init + [table[|table| - 1]];
      if table[|table| - 1].None? {
        assert LiveHandles(table) == LiveHandles(init);
        idx := pre;
        InOrderSkip(init, LiveHandles(init), pre);
      } else {
        var h := table[|table| - 1].value;
        assert LiveHandles(table) == LiveHandles(init) + [h];
        idx := pre + [|table| - 1];
        InOrderTake(init, LiveHandles(init), pre, h);
      }
    }
  }

  lemma InOrderSkip(init: seq<Option<Handle>>, live: seq<Handle>, pre: seq<nat>)
    requires InOrder(init, live, pre)
    ensures InOrder(init + [None], live, pre)
  {
    var table := init + [None];
    assert forall i :: 0 <= i < |init| ==> table[i] == init[i];
  }

  lemma InOrderTake(init: seq<Option<Handle>>, live: seq<Handle>, pre: seq<nat>, h: Handle)
    requires InOrder(init, live, pre)
    ensures InOrder(init + [Some(h)], live + [h], pre + [|init|])
  {
    var table, idx := init + [Some(h)], pre + [|init|];
    assert forall i :: 0 <= i < |init| ==> table[i] == init[i];
    assert forall k :: 0 <= k < |pre| ==> idx[k] == pre[k];
  }

  /** `{id, rtt, slot}` of one connection object. */
  function InfoOf(c: ConnInfo): PeerInfo
  {
    PeerInfo(c.id, c.rtt, c.slot)
  }

  /** The `{id, rtt, slot}` list of the live connections, in table order. */
  function Infos(table: seq<Option<Handle>>, conns: map<Handle, ConnInfo>): (r: seq<PeerInfo>)
    requires Admitted(table, conns)
    ensures |r| == |LiveHandles(table)|
    ensures forall k :: 0 <= k < |r| ==> r[k] == InfoOf(conns[LiveHandles(table)[k]])
  {
    var live := LiveHandles(table);
    seq(|live|, k requires 0 <= k < |live| => InfoOf(conns[live[k]]))
  }

  lemma SlotsMatchAdmitted(table: seq<Option<Handle>>, conns: map<Handle, ConnInfo>)
    requires SlotsMatch(table, conns)
    ensures Admitted(table, conns)
  {
    forall h | Some(h) in table
      ensures h in conns
    {
      var i :| 0 <= i < |table| && table[i] == Some(h);
    }
  }
}

=== FILE: wrappers.dfy ===
/** Optional values, standing in for JavaScript's `undefined`/`null`. */
module Wrappers {

  datatype Option<+T> = None | Some(value: T)
}
